=== FILE: README.md ===
# calendar_factory, modelled in Dafny

calendar_factory draws wallpaper calendars: one 3840×2160 image per colour
theme, with the year in the top margin and the twelve months in two rows of
six panels. Each panel has an inset border, the month name, a Monday-first
weekday header, the day numbers in a week grid and gray grid lines. Sundays
are red and Saturdays blue. The same layout is written twice in the
repository:

- `generate_calendar` in `calendar_generator.py`, driven by `main.py`, draws
  every theme of `config.py` for a year given on the command line;
- `generate_calendar.py` is a fixed script that draws 2026 on one light-gray
  background.

This model describes both programs with one set of definitions. A
`CalendarConfig` holds the constants, and the two programs are two values of
it (`Config.GeneratorConfig`, `Config.ScriptConfig`). A panel is the sequence
of drawing commands it issues (`Rect`, `Text`, `Line`), in the order the
renderer issues them. Text measurement comes in as a parameter `measure`,
because it belongs to the imaging library.

Modules, in dependency order:

- `Options`: optional values.
- `Decimal`: `str(int)` for years and day numbers.
- `Civil`: the proleptic Gregorian calendar.
  - Leap years, month lengths.
  - Weekday of a date, Monday = 0.
- `MonthGrid`: `calendar.monthcalendar`.
  - Weeks of seven cells, 0 for padding.
- `Config`: the constants of `config.py` and of the fixed script.
- `Geometry`: panel sizes and the 2×6 placement.
- `Seqs`: concatenations emitted by counting loops.
- `Commands`: drawing commands and filtering them by kind.
- `GridLoop`: the week loop of `draw_month`.
- `Panel`: `draw_month`.
- `Page`: `generate_calendar` and the fixed script's top level.
  - The placement loop, the year label, the file names.
- `Cli`: `main`.
  - The year default, the 1900..2100 gate, the unused `--output-dir`.

## Model

| member | source | states |
|---|---|---|
| Civil.IsLeapYear | calendar_generator.py:59 | The Gregorian leap rule of the library calendar. Its contract is stated by `Civil.YearLength`, `Civil.DaysInMonth` and `Civil.LeapCycle` (below). |
| Civil.YearLength | calendar_generator.py:59 | A year has 366 days exactly when it is a Gregorian leap year, and 365 otherwise. |
| Civil.DaysInMonth | calendar_generator.py:59 | Month lengths are 28..31: 29 exactly for February of a leap year, 28 for other Februaries, 30 exactly for April, June, September and November. |
| Civil.DaysBeforeMonthIsSum | calendar_generator.py:59 | The closed-form day count before a month equals the sum of the lengths of the months before it. |
| Civil.MonthsMakeYear | calendar_generator.py:59 | The twelve month lengths add up to the year's length. |
| Civil.DaysBeforeYearStep | calendar_generator.py:59 | The closed-form count of days before a year advances by exactly that year's length, for every integer year. |
| Civil.DaysBeforeYearIsSum | calendar_generator.py:59 | The closed-form days-before-year count equals the year-by-year sum of year lengths, in both directions from year 1. |
| Civil.Weekday | calendar_generator.py:59 | The weekday of a valid date, Monday = 0, is in 0..6. Its meaning is pinned by the anchors of `Civil.KnownWeekdays` and the steps of `Civil.WeekdayOfDay` and `Civil.WeekdayNextMonth`. |
| Civil.LeapCycle | calendar_generator.py:59 | The leap rule repeats every 400 years. |
| Civil.WeekdayOfDay | calendar_generator.py:59 | Within a month, day d falls d-1 weekdays after the 1st, modulo 7. |
| Civil.WeekdayNextMonth | calendar_generator.py:59 | The 1st of the next month falls the current month's length later in the week, also from December to January of the next year. |
| Civil.WeekdayCycle | calendar_generator.py:59 | The calendar repeats every 400 years: same validity and same weekday for the same date. |
| Civil.KnownWeekdays | calendar_generator.py:59 | Anchors: 1 January of year 1 is a Monday, 1 January 2026 a Thursday, and 29 February 2024 a Thursday. |
| MonthGrid.PaddingFillsWeeks | calendar_generator.py:59 | The leading blanks, the days and the trailing blanks always fill whole weeks. |
| MonthGrid.MonthDays | calendar_generator.py:59 | A month's flat cell run has lead + days + trail cells, a multiple of 7. Each cell is 0 in the padding and the day number in the run of days. |
| MonthGrid.Weeks | calendar_generator.py:59 | Cutting a run into weeks gives rows of exactly 7 cells. Row w, column c holds cell 7w+c. |
| MonthGrid.MonthCalendar | calendar_generator.py:59 | A month has 4 to 6 weeks, ceil((lead+days)/7) of them, each of exactly 7 cells. Each cell holds the padding 0 or its day number. |
| MonthGrid.FlattenWeeks | calendar_generator.py:59 | Reading the weeks back row by row gives the original cell run. |
| MonthGrid.MonthCalendarReadsDays | calendar_generator.py:59 | Read row by row, the non-zero cells of a month are exactly 1, 2, …, days-in-month. |
| MonthGrid.DayColumn | calendar_generator.py:59 | The flat position of day d, taken modulo 7, is d's weekday (Monday = 0). |
| MonthGrid.DayPlacement | calendar_generator.py:59 | Every day of the month sits in the grid at week position/7, column position%7, and that column is its weekday. |
| MonthGrid.FirstDayColumn | calendar_generator.py:59 | The 1st is in the first week at its weekday's column, and every column before it is padding. |
| MonthGrid.NoEmptyWeek | calendar_generator.py:59 | No week of the grid is all padding. |
| MonthGrid.KnownJanuary | calendar_generator.py:59 | January 2026 has five weeks, [0,0,0,1,2,3,4] first and [26,…,31,0] last: it starts in column 3. |
| MonthGrid.KnownFebruaries | calendar_generator.py:59 | February has 29 days in 2024 and 28 in 2023. |
| Decimal.IntToString | calendar_generator.py:94 | `str()` of an integer: at least one character, all digits for a non-negative number, a leading minus exactly for a negative one. |
| Decimal.NatToString | calendar_generator.py:94 | A natural number's decimal form is non-empty digits with no leading zero. |
| Decimal.NatRoundTrip | calendar_generator.py:94 | Reading the decimal form of a natural number back gives the number. |
| Decimal.IntRoundTrip | calendar_generator.py:94 | Reading `str(n)` back gives n, for every integer n. |
| Decimal.IntToStringInjective | calendar_generator.py:94 | Different years have different decimal forms, so different year labels. `Page.FileNameYearInjective` carries this to file names. |
| Decimal.KnownYear | generate_calendar.py:6 | `str(2026)` is "2026". |
| Config.ConfigsWellFormed | config.py:4-51 | Both programs' constants are consistent. There are twelve month names, parallel background and name lists (three themes for the generator), pairwise distinct theme names, RGB components in 0..255 and a positive inner area. |
| Config.ScriptSharesGeneratorConstants | generate_calendar.py:6-61 | The fixed script has the generator's geometry, colours and month names, and its one background is the generator's first. |
| Geometry.PanelWidth | calendar_generator.py:34 | The panel width is the floor of a sixth of the inner width. |
| Geometry.PanelHeight | calendar_generator.py:35 | The panel height is the floor of half the inner height. |
| Geometry.CellWidth | calendar_generator.py:48 | The cell width is the floor of a seventh of the panel width less both insets. |
| Geometry.MonthAtBijective | calendar_generator.py:103-105 | `month = row*6 + col + 1` maps the 2×6 positions one-to-one onto 1..12, with row = (m-1)/6 and column = (m-1)%6 as its inverse. |
| Geometry.PanelWithin | calendar_generator.py:102-107 | Every month's panel box lies inside the canvas less its margins. |
| Geometry.PanelsDisjoint | calendar_generator.py:102-107 | The boxes of two different months do not overlap. |
| Geometry.GeneratorGeometry | config.py:4-11 | With the configured sizes, the inner area is 3740×1760, a panel is 623×880 and a cell 87 wide. Every panel lies within [50,3790]×[200,1960]. |
| Panel.HeaderColourByColumn | calendar_generator.py:50 | Choosing the header colour by weekday name agrees with choosing the day colour by column: Sun red, Sat blue, others black. |
| Panel.ColumnXClosed | calendar_generator.py:52 | Column i starts at x + 5 + i·cell width. |
| Panel.HeaderColour | calendar_generator.py:50 | Header colour by weekday name. Its contract is `Panel.HeaderColourByColumn`: Sun red, Sat blue, the rest black. |
| Panel.DayColour | calendar_generator.py:67 | Day colour by column: column 6 red, 5 blue, the rest black. `Panel.DayText` states which column a day lands in. |
| Panel.BorderCommand | calendar_generator.py:23-32 | The border is a 2-px black rectangle. With room for the insets, it lies strictly inside the panel. |
| Panel.TitleCommand | calendar_generator.py:37-43 | The title is the month's name in black in the title font, 20 px below the panel top, centred by its measured width; an odd leftover pixel goes to the right. |
| Panel.HeaderCommands | calendar_generator.py:45-56 | Seven header texts, Mon..Sun in order, in the day font, 120 px below the panel top. Header i sits at x + 5 + i·cell width + cell width/2 − 15 and is coloured as the day column below it. |
| Panel.DayText | calendar_generator.py:64-69 | Day d is drawn as its decimal digits, in the day font, at its weekday's column and its week's row, coloured by its weekday. The x offset is -10 whatever the number of digits. |
| Panel.DayTextsAreRun | calendar_generator.py:64-69 | The reference day texts 1..n are what the loop's day cell draws for the days 1..n. |
| Panel.VerticalLines | calendar_generator.py:77-80 | Eight gray 1-px lines, left to right. Line i stands at x + 5 + i·cell width and runs from the given top to the given bottom. `Panel.DrawMonthLines` fixes the span: from the header row, y + 120, to the top of the last week row. |
| Panel.DrawPanel | calendar_generator.py:20-80 | The panel drawing over a given week grid: border, title, headers, the week loop, then the vertical lines. Its contract is stated by `Panel.DrawMonthRects`, `Panel.DrawMonthTexts`, `Panel.DrawMonthLines` and `Panel.DrawMonthCount`. |
| Panel.DrawMonth | calendar_generator.py:20-80 | `draw_month`: the panel drawing over the month's own grid. Its contract is stated by the `Panel.DrawMonth…` lemmas below. |
| Panel.DrawMonthRects | calendar_generator.py:20-80 | The only rectangle a panel draws is its border. |
| Panel.DrawMonthTexts | calendar_generator.py:20-80 | A panel's texts are the title, then the seven headers, then exactly the days 1..n in order (padding cells draw nothing). |
| Panel.DrawMonthLines | calendar_generator.py:61-80 | A panel's lines are one separator per week, at the bottom of each week row, then eight vertical lines. The vertical lines run from the header row to the top of the last week row. |
| Panel.DrawMonthCount | calendar_generator.py:20-80 | A panel draws 1 + 1 + 7 + n + weeks + 8 commands; rectangles, texts and lines account for all of them. |
| Panel.DrawMonthFonts | calendar_generator.py:20-80 | Nothing in a panel uses the year font. |
| Panel.DrawMonthReadsStyle | generate_calendar.py:65-125 | Two settings with the same geometry, colours and month names draw the same panel. That is why both `draw_month` versions agree. |
| Panel.LinesWithinBorder | calendar_generator.py:61-80 | With room for six weeks, every grid line stays within the inset border. |
| Panel.GeneratorGridFits | calendar_generator.py:61-80 | With the configured sizes, the last vertical line is at x+614, left of the border's right edge x+618. The last separator is at most y+800, above the bottom border at y+875. |
| GridLoop.GridCommands | calendar_generator.py:64-75 | The week loop. Its contract is stated by `GridLoop.GridLines` and `GridLoop.GridTexts`. |
| GridLoop.GridLines | calendar_generator.py:64-75 | The week loop's lines are exactly one separator per week, in order, and it draws no rectangle. |
| GridLoop.GridTexts | calendar_generator.py:64-69 | The week loop's texts, over a month's grid, are its days 1..n in order, each at its flat cell's row and column. |
| GridLoop.MonthFlatTexts | calendar_generator.py:64-69 | Drawing the cell run cell by cell gives no text for padding and day d for the d-th day cell. |
| Page.YearLabel | calendar_generator.py:93-100 | The year is written as its decimal digits in black, in the year font. It is centred on the canvas width and in the top margin by its measured size. |
| Page.MonthPanel | calendar_generator.py:105-110 | One month's panel at its place. `Page.MonthPanelBorder` states its border. |
| Page.Panels | calendar_generator.py:102-110 | The twelve panels in month order. `Page.PlacedPanels` ties the loop to it. `Page.PanelsHaveNoYearText` and `Page.PanelsReadStyle` state what it shows. |
| Page.PageCommands | calendar_generator.py:93-110 | The year label, then the panels. `Page.YearLabelOnce` and `Page.PageReadsStyle` state its contract. |
| Page.SlotOf | calendar_generator.py:106-107 | The loop's origin for position (row, col) is the place of month row·6+col+1. |
| Page.PlaceMonth | calendar_generator.py:105-110 | One loop step appends the panel of month row·6+col+1 at that month's place. |
| Page.DrawPanels | calendar_generator.py:102-110 | The placement loop visits months 1..12 once each, in order. It draws every month's panel at its place, in month order. |
| Page.PlacedPanels | calendar_generator.py:102-110 | Placing the generator's panel drawer gives the panels in month order. |
| Page.GenerateCalendar | calendar_generator.py:83-115 | One image per background, in order. Image i is saved as the i-th theme name's file, on the i-th background, at the configured canvas size, and shows the page's commands. |
| Page.ExtraNamesUnused | calendar_generator.py:113 | Theme names past the last background are never read: dropping them leaves every image unchanged. |
| Page.GeneratorCanvas | config.py:4-5 | Every image of the generating program is 3840×2160. |
| Page.ThemesShareCommands | calendar_generator.py:87-110 | All themes draw the same commands on the same canvas. Theme i has background i. |
| Page.FileName | calendar_generator.py:113 | A file name starts with its directory part and ends in `.png`. `Page.FileNameInjective` and `Page.FileNameDirInjective` show it tells themes and directories apart. |
| Page.FileNameInjective | calendar_generator.py:113 | Different theme names give different file names. |
| Page.ThemeFilesDistinct | calendar_generator.py:113 | With distinct theme names, no two themes of one year write the same file. |
| Page.FileNameDirInjective | calendar_generator.py:113 | Different directory strings give different file names. |
| Page.FileNameYearInjective | calendar_generator.py:113 | Different years give different file names for the same directory and theme. |
| Page.GeneratorFiles | calendar_generator.py:113 | The generator writes `target/<year>_calendar_gray.png`, then `…ivory…`, then `…taupe…`. |
| Page.FileName2026 | generate_calendar.py:137 | For 2026 the year part of every file name is the text "2026". |
| Page.ScriptFileName | generate_calendar.py:137 | For the script's year 2026, its one theme's file name is exactly the literal `2026_calendar_wallpaper.png`. |
| Page.MonthPanelBorder | calendar_generator.py:23-32 | The one rectangle of each placed panel is its month's box inset by 5 px, 2 px wide and black. |
| Page.PanelsHaveNoYearText | calendar_generator.py:102-110 | No panel writes in the year font. |
| Page.YearLabelOnce | calendar_generator.py:93-100 | The year is written once and first when the program labels the year; otherwise it is not written at all. |
| Page.PanelsReadStyle | generate_calendar.py:128-134 | Two settings with the same geometry, colours and month names draw the same twelve panels. |
| Page.PageReadsStyle | calendar_generator.py:87-110 | A page depends only on the geometry, colours, month names and whether the year is written, not on themes or directory. |
| Page.ScriptOutput | generate_calendar.py:128-137 | The script writes one image, `<year>_calendar_wallpaper.png` with no directory, 3840×2160 on (245,245,245). It shows the twelve panels and no year label. |
| Page.ScriptMatchesGenerator | generate_calendar.py:65-134 | For any year, the generator's page is the script's page with the year label in front. |
| Cli.Decide | main.py:14-30 | A year is refused, with the range message, exactly when it lies outside 1900..2100. An omitted year is 2026. |
| Cli.Main | main.py:12-34 | A run is refused exactly when the gate refuses the year. Otherwise its images are exactly the generator's images for the gate's year. |
| Cli.RangeEdges | main.py:28 | 1900 and 2100 are accepted; 1899 and 2101 are refused. |
| Cli.DefaultsTo2026 | main.py:14-20 | Without a year argument the program draws 2026: its images are the generator's images for 2026. |
| Cli.AcceptedYearGenerates | main.py:32-33 | An accepted year produces exactly the generator's images for that year. |
| Cli.RejectedYearWritesNothing | main.py:28-30 | A refused year produces the message and no image. |
| Cli.MainIgnoresOutputDir | main.py:21-23 | The `--output-dir` value does not change the run. |
| Cli.OutputDirIgnored | main.py:21-33 | Asked for any directory string other than `"target"`, the first theme still goes to `target` and not to the file named with the requested directory string. |
| Cli.MainWithOutputDir | main.py:21-33 | With the directory honoured, refusal and year are as in `Main`. The images are the generator's for that year with the given directory, `target` when none is given. |
| Cli.OutputDirHonoured | main.py:21-33 | With the directory honoured, each of the three themes goes to the requested directory, under its theme's name. |
| Cli.OutputDirKeepsDrawing | main.py:21-33 | Honouring the directory changes where files go, not what they show. |
| Cli.DefaultOutputDirAgrees | main.py:21-23 | Without `--output-dir`, the corrected entry point behaves as the program. |

## Left out

- Pixels: the imaging library's rasterising, `textbbox` measurement and `image.save`. A drawing is the list of commands issued. Measured sizes come in as `measure`.
- `load_fonts` and its fallback to the default font (calendar_generator.py:7-17, generate_calendar.py:15-25). This is file I/O. The model keeps only which font role each text uses. It does not model the script's different day font file. Both programs share one `measure`, which assumes they measure titles in the same font. That does not always hold: the generator falls back to the default font for all three roles when any one font fails to load, the CJK font included, while the script loads only DejaVu files.
- `os.makedirs` and the progress and completion `print` lines. These are effects with no layout logic.
- The argument parser itself. The year argument is given as an optional integer and the directory as an optional string. A non-integer year, which argparse refuses, is not modelled.
- The exit status of a refused run. The program prints and returns; the model returns `Rejected` with the message.
- Lunar New Year marking: no source file implements it.
- Output directory: the program never passes `--output-dir` on and always writes to config's `OUTPUT_DIR`. The model follows the code, not a description in which the run writes to the requested directory.
- Page.GenerateCalendar: requires at least as many theme names as backgrounds. The program would fail on the missing name, and that failure is not modelled.
- Panel.DrawMonth: requires at least twelve month names, because the program indexes `MONTHS[month-1]` for months 1..12 and reads nothing past the twelfth. A shorter list would fail in the program, and that failure is not modelled.
- Page.ScriptOutput: the script's file name is a fixed literal. The model builds it from the year template, which gives the same name for the script's year 2026 (`Page.ScriptFileName`) but not for other years.
- Panel.ColumnX: the column offset is defined by steps of one cell width. `Panel.ColumnXClosed` proves it equal to the program's `x + 5 + i * cell_width`.
- Panel.LinesWithinBorder: assumes room for six week rows. The generator's sizes meet this (`Panel.GeneratorGridFits`).

## Findings

| source | as written | input that shows it | evidently intended | confidence | as-written member | corrected member |
|---|---|---|---|---|---|---|
| main.py:21-33 | `--output-dir` is parsed (help text "Output directory") but `generate_calendar(args.year)` is called without it, so files always go to config's `target` | `main.py 2026 --output-dir out` writes `target/2026_calendar_gray.png` and nothing under `out/` | the files go to the requested directory, `target` when the option is omitted | medium, not executed | Cli.OutputDirIgnored | Cli.OutputDirHonoured |

=== FILE: civil.dfy ===
/**
  Proleptic Gregorian calendar arithmetic: the leap-year rule, the length of
  every month, and the weekday of a date, counted the way a civil-date
  library counts them (day 1 is Monday, January 1 of year 1).

  Every year is an integer; the Gregorian rules are applied to all of them,
  so years before 1 follow the same 400-year cycle.  Dafny's `/` and `%`
  are Euclidean, which for the positive divisors used here coincide with
  the floor division of the modelled program.
 */
module Civil {

  /** Monday = 0, ..., Sunday = 6. */
  const Saturday := 5
  const Sunday := 6

  /** Month lengths of a common year, January first. */
  const CommonMonthDays: seq<int> := [31, 28, 31, 30, 31, 30, 31, 31, 30, 31, 30, 31]

  /** Days before the first of each month in a common year. */
  const CommonDaysBefore: seq<int> := [0, 31, 59, 90, 120, 151, 181, 212, 243, 273, 304, 334]

  predicate ValidMonth(month: int) {
    1 <= month <= 12
  }

  /** Divisible by 4, except centuries, except every fourth century. */
  predicate IsLeapYear(year: int) {
    year % 4 == 0 && (year % 100 != 0 || year % 400 == 0)
  }

  function YearLength(year: int): (n: int)
    ensures n == 365 || n == 366
    ensures n == 366 <==> IsLeapYear(year)
  {
    if IsLeapYear(year) then 366 else 365
  }

  /** The common-year table, plus one day for February of a leap year. */
  function DaysInMonth(year: int, month: int): (n: int)
    requires ValidMonth(month)
    ensures 28 <= n <= 31
    ensures n == 29 <==> month == 2 && IsLeapYear(year)
    ensures n == 28 <==> month == 2 && !IsLeapYear(year)
    ensures n == 30 <==> month == 4 || month == 6 || month == 9 || month == 11
  {
    CommonMonthDays[month - 1] + if month == 2 && IsLeapYear(year) then 1 else 0
  }

  /** Days of the year that precede the first of `month`, from a table. */
  function DaysBeforeMonth(year: int, month: int): (n: int)
    requires ValidMonth(month)
    ensures 0 <= n <= 335
  {
    CommonDaysBefore[month - 1] + if month > 2 && IsLeapYear(year) then 1 else 0
  }

  /** Reference definition: the sum of the lengths of the earlier months. */
  function DaysBeforeMonthSum(year: int, month: int): int
    requires ValidMonth(month)
  {
    if month == 1 then 0 else DaysBeforeMonthSum(year, month - 1) + DaysInMonth(year, month - 1)
  }

  /** The table agrees with the running sum of month lengths. */
  lemma {:induction false} DaysBeforeMonthIsSum(year: int, month: int)
    requires ValidMonth(month)
    ensures DaysBeforeMonth(year, month) == DaysBeforeMonthSum(year, month)
    decreases month
  {
    if month > 1 {
      DaysBeforeMonthIsSum(year, month - 1);
    }
  }

  /** The twelve months together make up the year. */
  lemma MonthsMakeYear(year: int)
    ensures DaysBeforeMonthSum(year, 12) + DaysInMonth(year, 12) == YearLength(year)
  {
    DaysBeforeMonthIsSum(year, 12);
  }

  /** Days from January 1 of year 1 to January 1 of `year`, in closed form. */
  function DaysBeforeYear(year: int): int {
    var p := year - 1;
    365 * p + p / 4 - p / 100 + p / 400
  }

  /** Reference definition: add up the lengths of the years from year 1,
      forwards for later years and backwards for earlier ones. */
  function DaysBeforeYearSum(year: int): int
    decreases if year >= 1 then year - 1 else 1 - year
  {
    if year == 1 then 0
    else if year > 1 then DaysBeforeYearSum(year - 1) + YearLength(year - 1)
    else DaysBeforeYearSum(year + 1) - YearLength(year)
  }

  /** Stepping `k` years in the floor quotient adds one exactly at multiples of `k`. */
  lemma QuotientStep(y: int, k: int)
    requires k == 4 || k == 100 || k == 400
    ensures y / k - (y - 1) / k == if y % k == 0 then 1 else 0
  {
    var q, r := y / k, y % k;
    assert y == k * q + r && 0 <= r < k;
    if r == 0 {
      assert y - 1 == k * (q - 1) + (k - 1);
    } else {
      assert y - 1 == k * q + (r - 1);
    }
  }

  /** The closed form grows by exactly the length of each year. */
  lemma DaysBeforeYearStep(year: int)
    ensures DaysBeforeYear(year + 1) == DaysBeforeYear(year) + YearLength(year)
  {
    var p := year - 1;
    var d4, d100, d400 := year / 4 - p / 4, year / 100 - p / 100, year / 400 - p / 400;
    QuotientStep(year, 4);
    QuotientStep(year, 100);
    QuotientStep(year, 400);
    assert DaysBeforeYear(year + 1) == DaysBeforeYear(year) + 365 + d4 - d100 + d400 by {
      assert 365 * year == 365 * p + 365;
    }
    LeapSteps(year);
  }

  /** The three quotient steps add up to one exactly in leap years. */
  lemma LeapSteps(year: int)
    ensures (if year % 4 == 0 then 1 else 0) - (if year % 100 == 0 then 1 else 0)
      + (if year % 400 == 0 then 1 else 0) == if IsLeapYear(year) then 1 else 0
  {
    if year % 400 == 0 {
      assert year == 400 * (year / 400);
      assert year == 100 * (4 * (year / 400));
      assert year == 4 * (100 * (year / 400));
    } else if year % 100 == 0 {
      assert year == 4 * (25 * (year / 100));
    }
  }

  /** The closed form and the year-by-year sum agree for every year. */
  lemma {:induction false} DaysBeforeYearIsSum(year: int)
    ensures DaysBeforeYear(year) == DaysBeforeYearSum(year)
    decreases if year >= 1 then year - 1 else 1 - year
  {
    if year > 1 {
      DaysBeforeYearIsSum(year - 1);
      DaysBeforeYearStep(year - 1);
    } else if year < 1 {
      DaysBeforeYearIsSum(year + 1);
      DaysBeforeYearStep(year);
    }
  }

  predicate ValidDate(year: int, month: int, day: int) {
    ValidMonth(month) && 1 <= day <= DaysInMonth(year, month)
  }

  /** Day count with January 1 of year 1 as day 1. */
  function Ordinal(year: int, month: int, day: int): int
    requires ValidMonth(month)
  {
    DaysBeforeYear(year) + DaysBeforeMonth(year, month) + day
  }

  /** Weekday of a date, Monday = 0 through Sunday = 6. */
  function Weekday(year: int, month: int, day: int): (w: int)
    requires ValidDate(year, month, day)
    ensures 0 <= w < 7
  {
    (Ordinal(year, month, day) + 6) % 7
  }

  /** Shifting by `b` commutes with reducing modulo a week. */
  lemma AddMod7(a: int, b: int)
    ensures (a + b) % 7 == (a % 7 + b) % 7
  {
    var q := a / 7;
    assert a == 7 * q + a % 7;
    assert a + b == 7 * q + (a % 7 + b);
  }

  /** Whole weeks do not change the weekday. */
  lemma AddWeeks(a: int, k: int)
    ensures (a + 7 * k) % 7 == a % 7
  {
    var q := a / 7;
    assert a == 7 * q + a % 7;
    assert a + 7 * k == 7 * (q + k) + a % 7;
  }

  /** Within a month, each day is one weekday after the previous one. */
  lemma WeekdayOfDay(year: int, month: int, day: int)
    requires ValidDate(year, month, day)
    ensures Weekday(year, month, day) == (Weekday(year, month, 1) + day - 1) % 7
  {
    var o1 := Ordinal(year, month, 1);
    assert Ordinal(year, month, day) == o1 + day - 1;
    AddMod7(o1 + 6, day - 1);
  }

  /** The first of the next month falls `DaysInMonth` days later, also across
      the turn of the year. */
  lemma WeekdayNextMonth(year: int, month: int)
    requires ValidMonth(month)
    ensures month < 12 ==>
      Weekday(year, month + 1, 1) == (Weekday(year, month, 1) + DaysInMonth(year, month)) % 7
    ensures month == 12 ==>
      Weekday(year + 1, 1, 1) == (Weekday(year, 12, 1) + DaysInMonth(year, 12)) % 7
  {
    var o := Ordinal(year, month, 1);
    var n := DaysInMonth(year, month);
    DaysBeforeMonthIsSum(year, month);
    if month < 12 {
      DaysBeforeMonthIsSum(year, month + 1);
      assert Ordinal(year, month + 1, 1) == o + n;
    } else {
      DaysBeforeYearStep(year);
      MonthsMakeYear(year);
      assert Ordinal(year + 1, 1, 1) == o + n;
    }
    AddMod7(o + 6, n);
  }

  /** A 400-year cycle has 146097 days. */
  lemma DaysBeforeYearCycle(year: int)
    ensures DaysBeforeYear(year + 400) == DaysBeforeYear(year) + 146097
  {
    var p := year - 1;
    assert (p + 400) / 4 == p / 4 + 100;
    assert (p + 400) / 100 == p / 100 + 4;
    assert (p + 400) / 400 == p / 400 + 1;
    assert 365 * (p + 400) == 365 * p + 146000;
  }

  lemma LeapCycle(year: int)
    ensures IsLeapYear(year + 400) == IsLeapYear(year)
  {
    assert year + 400 == year + 4 * 100;
    assert (year + 400) % 4 == year % 4;
    assert (year + 400) % 100 == year % 100;
    assert (year + 400) % 400 == year % 400;
  }

  /** 146097 days are a whole number of weeks, so the weekdays repeat every 400 years. */
  lemma WeekdayCycle(year: int, month: int, day: int)
    requires ValidDate(year, month, day)
    ensures ValidDate(year + 400, month, day)
    ensures Weekday(year + 400, month, day) == Weekday(year, month, day)
  {
    DaysBeforeYearCycle(year);
    LeapCycle(year);
    assert DaysBeforeMonth(year + 400, month) == DaysBeforeMonth(year, month);
    var o := Ordinal(year, month, day);
    assert Ordinal(year + 400, month, day) == o + 7 * 20871;
    AddWeeks(o + 6, 20871);
  }

  /** Fixed points: January 1 of year 1 is a Monday, January 1, 2026 a Thursday. */
  lemma KnownWeekdays()
    ensures Weekday(1, 1, 1) == 0
    ensures Weekday(2026, 1, 1) == 3
    ensures Weekday(2024, 2, 29) == 3
  {
  }
}

=== FILE: cli.dfy ===
/**
  The command-line entry point of the theme-generating program: an optional
  year (2026 when omitted) and an optional output directory.  A year outside
  1900..2100 is refused with a message before anything is drawn; any other
  year is passed to `GenerateCalendar` with the program's own settings.

  The output directory is read but never passed on, so the files always go
  to the configured directory `target`.  `MainWithOutputDir` is the entry
  point with the option honoured.
 */
module Cli {
  import opened Options
  import opened Config
  import opened Page

  const MinYear := 1900
  const MaxYear := 2100
  const DefaultYear := 2026
  const DefaultOutputDir := "target"

  const RangeMessage := "Error: Year must be between 1900 and 2100"

  /** The year argument's fate: the year to draw, or the message refusing
      it. */
  datatype Decision = Refuse(message: string) | Draw(year: int)

  /** What a run does: refuse the year with a message, or write the images
      of the year it was given. */
  datatype Outcome = Rejected(message: string) | Generated(year: int, images: seq<Image>)

  predicate YearInRange(year: int) {
    MinYear <= year <= MaxYear
  }

  /** The argument handling and the year gate: an omitted year is 2026, and
      only years in 1900..2100 go on to be drawn. */
  function Decide(yearArg: Option<int>): (d: Decision)
    ensures d.Refuse? <==> !YearInRange(yearArg.GetOr(DefaultYear))
    ensures d.Refuse? ==> d.message == RangeMessage
    ensures d.Draw? ==> d.year == yearArg.GetOr(DefaultYear)
  {
    var year := yearArg.GetOr(DefaultYear);
    if YearInRange(year) then Draw(year) else Refuse(RangeMessage)
  }

  /** The program as written: the output directory argument plays no part. */
  function Main(yearArg: Option<int>, outputDirArg: Option<string>, measure: Measure): (o: Outcome)
    ensures o.Rejected? <==> Decide(yearArg).Refuse?
    ensures o.Generated? ==> o.year == Decide(yearArg).year
    ensures o.Generated? ==> o.images == GenerateCalendar(GeneratorConfig, o.year, measure)
  {
    match Decide(yearArg)
    case Refuse(message) => Rejected(message)
    case Draw(year) => Generated(year, GenerateCalendar(GeneratorConfig, year, measure))
  }

  /** The entry point with the output directory honoured: the generating
      program's settings with the given directory, `target` when omitted. */
  function MainWithOutputDir(yearArg: Option<int>, outputDirArg: Option<string>, measure: Measure): (o: Outcome)
    ensures o.Rejected? <==> Decide(yearArg).Refuse?
    ensures o.Generated? ==> o.year == Decide(yearArg).year
    ensures o.Generated? ==>
      o.images == GenerateCalendar(GeneratorConfig.(outputDir := Some(outputDirArg.GetOr(DefaultOutputDir))), o.year, measure)
  {
    match Decide(yearArg)
    case Refuse(message) => Rejected(message)
    case Draw(year) =>
      Generated(year, GenerateCalendar(GeneratorConfig.(outputDir := Some(outputDirArg.GetOr(DefaultOutputDir))), year, measure))
  }

  /** The gate's edges: both endpoints are accepted and the years just
      outside are refused. */
  lemma RangeEdges()
    ensures Decide(Some(1900)) == Draw(1900) && Decide(Some(2100)) == Draw(2100)
    ensures Decide(Some(1899)) == Refuse(RangeMessage) && Decide(Some(2101)) == Refuse(RangeMessage)
  {
  }

  /** Without a year the program draws 2026. */
  lemma DefaultsTo2026(outputDirArg: Option<string>, measure: Measure)
    ensures Main(None, outputDirArg, measure).Generated?
    ensures Main(None, outputDirArg, measure).year == 2026
    ensures Main(None, outputDirArg, measure).images == GenerateCalendar(GeneratorConfig, 2026, measure)
  {
  }

  /** An accepted year is drawn once, by the generating program with its own
      settings, and the run's images are exactly that call's images. */
  lemma AcceptedYearGenerates(year: int, outputDirArg: Option<string>, measure: Measure)
    requires YearInRange(year)
    ensures Main(Some(year), outputDirArg, measure) == Generated(year, GenerateCalendar(GeneratorConfig, year, measure))
  {
  }

  /** A refused year writes nothing. */
  lemma RejectedYearWritesNothing(year: int, outputDirArg: Option<string>, measure: Measure)
    requires !YearInRange(year)
    ensures Main(Some(year), outputDirArg, measure) == Rejected(RangeMessage)
  {
  }

  /** The output directory argument does not change the run. */
  lemma MainIgnoresOutputDir(yearArg: Option<int>, d1: Option<string>, d2: Option<string>, measure: Measure)
    ensures Main(yearArg, d1, measure) == Main(yearArg, d2, measure)
  {
  }

  /** As written: asked for any directory other than `target`, the program
      still writes the first theme to `target`, not to the directory asked
      for. */
  lemma OutputDirIgnored(year: int, dir: string, measure: Measure)
    requires YearInRange(year) && dir != DefaultOutputDir
    ensures Main(Some(year), Some(dir), measure).Generated?
    ensures Main(Some(year), Some(dir), measure).images[0].file == FileName(Some("target"), year, "gray")
    ensures Main(Some(year), Some(dir), measure).images[0].file != FileName(Some(dir), year, "gray")
  {
    GeneratorFiles(year, measure);
    FileNameDirInjective("target", dir, year, "gray");
  }

  /** With the option honoured, every file goes to the requested directory,
      under its theme's name, in the themes' order. */
  lemma OutputDirHonoured(year: int, dir: string, measure: Measure)
    requires YearInRange(year)
    ensures MainWithOutputDir(Some(year), Some(dir), measure).Generated?
    ensures |MainWithOutputDir(Some(year), Some(dir), measure).images| == 3
    ensures forall i :: 0 <= i < 3 ==>
      MainWithOutputDir(Some(year), Some(dir), measure).images[i].file == FileName(Some(dir), year, GeneratorColorNames[i])
  {
  }

  /** Honouring the option changes where the files go, not what they show. */
  lemma OutputDirKeepsDrawing(year: int, dir: string, measure: Measure)
    requires YearInRange(year)
    ensures MainWithOutputDir(Some(year), Some(dir), measure).Generated?
    ensures forall i :: 0 <= i < |MainWithOutputDir(Some(year), Some(dir), measure).images| ==>
      MainWithOutputDir(Some(year), Some(dir), measure).images[i].commands == PageCommands(GeneratorConfig, year, measure)
  {
    var cfg := GeneratorConfig.(outputDir := Some(dir));
    PageReadsStyle(cfg, GeneratorConfig, year, measure);
    assert MainWithOutputDir(Some(year), Some(dir), measure).images == Themes(cfg, year, PageCommands(cfg, year, measure));
  }

  /** Without the option, the corrected entry point is the program. */
  lemma DefaultOutputDirAgrees(yearArg: Option<int>, measure: Measure)
    ensures MainWithOutputDir(yearArg, None, measure) == Main(yearArg, None, measure)
  {
    assert GeneratorConfig.(outputDir := Some(DefaultOutputDir)) == GeneratorConfig;
  }
}

=== FILE: commands.dfy ===
/**
  The drawing commands a panel issues, in the order the renderer issues them,
  and filtering them by kind: the border is the one rectangle, titles and
  numbers are texts, grid lines are lines.  Filtering keeps the order, so a
  statement about the texts of a panel is a statement about the order in
  which they are drawn.
 */
module Commands {
  import opened Config
  import opened Seqs

  datatype Point = Point(x: int, y: int)

  /** The three fonts: bold month titles, the large year label, and the
      regular face of weekday headers and day numbers. */
  datatype FontRole = TitleFont | YearFont | DayFont

  datatype Command =
    | Rect(topLeft: Point, bottomRight: Point, outline: Rgb, width: int)
    | Line(from: Point, to: Point, fill: Rgb, width: int)
    | Text(pos: Point, text: string, fill: Rgb, font: FontRole)

  datatype Kind = RectKind | LineKind | TextKind

  function KindOf(c: Command): Kind {
    match c
    case Rect(_, _, _, _) => RectKind
    case Line(_, _, _, _) => LineKind
    case Text(_, _, _, _) => TextKind
  }

  /** The commands of one kind, in their original order. */
  function OfKind(cs: seq<Command>, k: Kind): seq<Command> {
    if |cs| == 0 then []
    else (if KindOf(cs[0]) == k then [cs[0]] else []) + OfKind(cs[1..], k)
  }

  /** Every command of `cs` has kind `k`. */
  predicate AllOfKind(cs: seq<Command>, k: Kind) {
    forall i :: 0 <= i < |cs| ==> KindOf(cs[i]) == k
  }

  lemma {:induction false} OfKindAppend(a: seq<Command>, b: seq<Command>, k: Kind)
    ensures OfKind(a + b, k) == OfKind(a, k) + OfKind(b, k)
    decreases |a|
  {
    if |a| > 0 {
      OfKindAppend(a[1..], b, k);
      TailOfAppend(a, b);
    } else {
      AppendEmpty(b);
    }
  }

  /** Filtering keeps a sequence whose commands all have the kind, and empties
      one whose commands all have another. */
  lemma {:induction false} OfKindUniform(cs: seq<Command>, k: Kind)
    requires AllOfKind(cs, k)
    ensures OfKind(cs, k) == cs
    ensures forall k' :: k' != k ==> OfKind(cs, k') == []
    decreases |cs|
  {
    if |cs| > 0 {
      OfKindUniform(cs[1..], k);
    }
  }

  lemma OfKindSingle(c: Command, k: Kind)
    ensures OfKind([c], k) == if KindOf(c) == k then [c] else []
  {
    assert [c][1..] == [];
  }

  /** Every command has exactly one kind: the three filters together keep
      every command once. */
  lemma {:induction false} KindCount(cs: seq<Command>)
    ensures |OfKind(cs, RectKind)| + |OfKind(cs, TextKind)| + |OfKind(cs, LineKind)| == |cs|
    decreases |cs|
  {
    if |cs| > 0 {
      KindCount(cs[1..]);
    }
  }

  lemma AllOfKindAppend(a: seq<Command>, b: seq<Command>, k: Kind)
    requires AllOfKind(a, k) && AllOfKind(b, k)
    ensures AllOfKind(a + b, k)
  {
  }

  /** No command of `cs` is a text in font `f`. */
  predicate NoneInFont(cs: seq<Command>, f: FontRole) {
    forall i :: 0 <= i < |cs| ==> !(cs[i].Text? && cs[i].font == f)
  }

  lemma NoneInFontAppend(a: seq<Command>, b: seq<Command>, f: FontRole)
    requires NoneInFont(a, f) && NoneInFont(b, f)
    ensures NoneInFont(a + b, f)
  {
  }

  /** Whether some text is in font `f` can be read off the texts alone. */
  lemma {:induction false} NoneInFontOfTexts(cs: seq<Command>, f: FontRole)
    requires NoneInFont(OfKind(cs, TextKind), f)
    ensures NoneInFont(cs, f)
    decreases |cs|
  {
    if |cs| > 0 {
      var head := if KindOf(cs[0]) == TextKind then [cs[0]] else [];
      var rest := OfKind(cs[1..], TextKind);
      assert OfKind(cs, TextKind) == head + rest;
      assert NoneInFont(rest, f) by {
        forall i | 0 <= i < |rest|
          ensures !(rest[i].Text? && rest[i].font == f)
        {
          assert rest[i] == (head + rest)[|head| + i];
        }
      }
      NoneInFontOfTexts(cs[1..], f);
      assert !(cs[0].Text? && cs[0].font == f) by {
        if cs[0].Text? {
          assert (head + rest)[0] == cs[0];
        }
      }
      assert cs == [cs[0]] + cs[1..];
      NoneInFontAppend([cs[0]], cs[1..], f);
    }
  }

  // Filtering the output of a loop.

  /** Iteration `j` of a loop, filtered. */
  function OfKindAt(f: int -> seq<Command>, k: Kind): int -> seq<Command> {
    j => OfKind(f(j), k)
  }

  /** Filtering a loop's output filters each iteration's output. */
  lemma {:induction false} OfKindConcat(f: int -> seq<Command>, lo: int, hi: int, k: Kind)
    ensures OfKind(ConcatRange(f, lo, hi), k) == ConcatRange(OfKindAt(f, k), lo, hi)
    decreases hi - lo
  {
    if lo < hi {
      OfKindConcat(f, lo + 1, hi, k);
      OfKindAppend(f(lo), ConcatRange(f, lo + 1, hi), k);
    }
  }

  /** Iteration `j` of `f` emits commands of kind `k` only. */
  predicate EmitsKind(f: int -> seq<Command>, k: Kind, j: int) {
    AllOfKind(f(j), k)
  }

  /** A loop whose iterations emit commands of one kind emits only that kind. */
  lemma {:induction false} ConcatAllOfKind(f: int -> seq<Command>, lo: int, hi: int, k: Kind)
    requires forall j :: lo <= j < hi ==> EmitsKind(f, k, j)
    ensures AllOfKind(ConcatRange(f, lo, hi), k)
    decreases hi - lo
  {
    if lo < hi {
      ConcatAllOfKind(f, lo + 1, hi, k);
      var a, b := f(lo), ConcatRange(f, lo + 1, hi);
      assert EmitsKind(f, k, lo);
      assert ConcatRange(f, lo, hi) == a + b;
      AllOfKindAppend(a, b, k);
    }
  }

  /** Filtering a loop whose iteration `j` keeps just `s[j - lo]` gives `s`. */
  lemma FilteredSingles(f: int -> seq<Command>, k: Kind, s: seq<Command>, lo: int, hi: int)
    requires lo <= hi && |s| == hi - lo
    requires forall j :: lo <= j < hi ==> EmitsAt(OfKindAt(f, k), s, lo, j)
    ensures OfKind(ConcatRange(f, lo, hi), k) == s
  {
    OfKindConcat(f, lo, hi, k);
    ConcatRangeSingles(OfKindAt(f, k), s, lo, hi);
  }

  /** Filtering a loop whose iterations keep nothing gives nothing. */
  lemma FilteredEmpty(f: int -> seq<Command>, k: Kind, lo: int, hi: int)
    requires forall j :: lo <= j < hi ==> Silent(OfKindAt(f, k), j)
    ensures OfKind(ConcatRange(f, lo, hi), k) == []
  {
    OfKindConcat(f, lo, hi, k);
    ConcatRangeEmpty(OfKindAt(f, k), lo, hi);
  }

  /** Filtering an outer loop whose iteration `w` keeps what iterations
      `7 * w .. 7 * w + 6` of an inner loop emit gives the inner loop. */
  lemma FilteredSevens(f: int -> seq<Command>, k: Kind, h: int -> seq<Command>, n: nat)
    requires forall w :: 0 <= w < n ==> BlockOf(h, OfKindAt(f, k), w)
    ensures OfKind(ConcatRange(f, 0, n), k) == ConcatRange(h, 0, 7 * n)
  {
    OfKindConcat(f, 0, n, k);
    ConcatRangeSevens(h, OfKindAt(f, k), n);
  }
}

=== FILE: config.dfy ===
/**
  The constants the layout depends on, as one immutable record.  The
  theme-generating program and the fixed-year wallpaper script are two values
  of this record: they share canvas size, margins, text colours and month
  names, and differ in their backgrounds, their output names, where the files
  go and whether the year is written above the panels.
 */
module Config {
  import opened Options

  datatype Rgb = Rgb(r: int, g: int, b: int)

  predicate ValidComponent(v: int) {
    0 <= v <= 255
  }

  predicate ValidRgb(c: Rgb) {
    ValidComponent(c.r) && ValidComponent(c.g) && ValidComponent(c.b)
  }

  /** Canvas size and the margins around the area the twelve panels share. */
  datatype Layout = Layout(
    width: int, height: int,
    leftMargin: int, rightMargin: int, topMargin: int, bottomMargin: int)

  /** Text and line colours: black text, gray grid lines, red Sundays, blue Saturdays. */
  datatype Palette = Palette(black: Rgb, gray: Rgb, red: Rgb, blue: Rgb)

  /** `backgrounds` and `colorNames` are parallel lists: the i-th theme paints
      `backgrounds[i]` and names its file after `colorNames[i]`.  With
      `outputDir == None` the file name has no directory part. */
  datatype CalendarConfig = CalendarConfig(
    layout: Layout,
    palette: Palette,
    monthNames: seq<string>,
    backgrounds: seq<Rgb>,
    colorNames: seq<string>,
    outputDir: Option<string>,
    yearLabel: bool)

  predicate Distinct<T(==)>(s: seq<T>) {
    forall i, j :: 0 <= i < j < |s| ==> s[i] != s[j]
  }

  predicate ValidPalette(p: Palette) {
    ValidRgb(p.black) && ValidRgb(p.gray) && ValidRgb(p.red) && ValidRgb(p.blue)
  }

  /** The consistency the programs rely on without checking it. */
  predicate WellFormed(cfg: CalendarConfig) {
    && |cfg.monthNames| == 12
    && |cfg.backgrounds| == |cfg.colorNames|
    && Distinct(cfg.colorNames)
    && (forall i :: 0 <= i < |cfg.backgrounds| ==> ValidRgb(cfg.backgrounds[i]))
    && ValidPalette(cfg.palette)
    && cfg.layout.width - cfg.layout.leftMargin - cfg.layout.rightMargin > 0
    && cfg.layout.height - cfg.layout.topMargin - cfg.layout.bottomMargin > 0
  }

  // The settings module of the theme-generating program.

  const GeneratorLayout := Layout(3840, 2160, 50, 50, 200, 200)

  const GeneratorPalette := Palette(Rgb(0, 0, 0), Rgb(169, 169, 169), Rgb(220, 20, 60), Rgb(70, 130, 180))

  const GeneratorMonthNames: seq<string> := [
    "January", "February", "March", "April", "May", "June",
    "July", "August", "September", "October", "November", "December"]

  const GeneratorBackgrounds: seq<Rgb> := [Rgb(245, 245, 245), Rgb(255, 248, 220), Rgb(157, 148, 136)]

  const GeneratorColorNames: seq<string> := ["gray", "ivory", "taupe"]

  const GeneratorConfig := CalendarConfig(
    GeneratorLayout, GeneratorPalette, GeneratorMonthNames,
    GeneratorBackgrounds, GeneratorColorNames, Some("target"), true)

  // The fixed-year wallpaper script, which declares its own copies.

  const ScriptYear := 2026

  const ScriptLayout := Layout(3840, 2160, 50, 50, 200, 200)

  const ScriptPalette := Palette(Rgb(0, 0, 0), Rgb(169, 169, 169), Rgb(220, 20, 60), Rgb(70, 130, 180))

  const ScriptMonthNames: seq<string> := [
    "January", "February", "March", "April", "May", "June",
    "July", "August", "September", "October", "November", "December"]

  /** One light-gray background; the single file is written to the working
      directory under the theme name "wallpaper", with no year label. */
  const ScriptConfig := CalendarConfig(
    ScriptLayout, ScriptPalette, ScriptMonthNames,
    [Rgb(245, 245, 245)], ["wallpaper"], None, false)

  /** Both programs' constants are consistent: twelve month names, one name
      per background, distinct names, colours in range, a positive inner area. */
  lemma ConfigsWellFormed()
    ensures WellFormed(GeneratorConfig)
    ensures WellFormed(ScriptConfig)
    ensures |GeneratorConfig.backgrounds| == 3
  {
  }

  /** The script repeats the settings module's geometry, colours and names. */
  lemma ScriptSharesGeneratorConstants()
    ensures ScriptConfig.layout == GeneratorConfig.layout
    ensures ScriptConfig.palette == GeneratorConfig.palette
    ensures ScriptConfig.monthNames == GeneratorConfig.monthNames
    ensures ScriptConfig.backgrounds == GeneratorConfig.backgrounds[..1]
  {
  }
}

=== FILE: decimal.dfy ===
/**
  Decimal rendering of integers, as the program's string conversion of a day
  number or a year produces it: no leading zeros, a leading '-' for negative
  values.  `ParseNat` and `ParseInt` read such a string back and serve as the
  reference the rendering is checked against.
 */
module Decimal {

  predicate IsDigit(c: char) {
    '0' <= c <= '9'
  }

  function DigitChar(d: int): (c: char)
    requires 0 <= d < 10
    ensures IsDigit(c)
  {
    "0123456789"[d]
  }

  function DigitValue(c: char): (d: int)
    requires IsDigit(c)
    ensures 0 <= d < 10
  {
    c as int - '0' as int
  }

  lemma DigitRoundTrip(d: int)
    requires 0 <= d < 10
    ensures DigitValue(DigitChar(d)) == d
  {
  }

  /** Digits of `n`, most significant first. */
  function NatToString(n: nat): (s: string)
    ensures |s| >= 1
    ensures forall i :: 0 <= i < |s| ==> IsDigit(s[i])
    ensures |s| > 1 ==> s[0] != '0'
    decreases n
  {
    if n < 10 then [DigitChar(n)] else NatToString(n / 10) + [DigitChar(n % 10)]
  }

  /** The value of a string of digits. */
  function ParseNat(s: string): nat
    requires forall i :: 0 <= i < |s| ==> IsDigit(s[i])
    decreases |s|
  {
    if |s| == 0 then 0 else 10 * ParseNat(s[..|s| - 1]) + DigitValue(s[|s| - 1])
  }

  /** Reading the digits back gives the number. */
  lemma {:induction false} NatRoundTrip(n: nat)
    ensures ParseNat(NatToString(n)) == n
    decreases n
  {
    var s := NatToString(n);
    if n < 10 {
      DigitRoundTrip(n);
    } else {
      NatRoundTrip(n / 10);
      assert s[..|s| - 1] == NatToString(n / 10);
      DigitRoundTrip(n % 10);
    }
  }

  /** Decimal form of any integer; negative values get a leading '-'. */
  function IntToString(n: int): (s: string)
    ensures |s| >= 1
    ensures n >= 0 ==> forall i :: 0 <= i < |s| ==> IsDigit(s[i])
    ensures n < 0 <==> s[0] == '-'
  {
    if n < 0 then "-" + NatToString(-n) else NatToString(n)
  }

  function ParseInt(s: string): int
    requires |s| >= 1
    requires forall i :: 1 <= i < |s| ==> IsDigit(s[i])
    requires s[0] == '-' || IsDigit(s[0])
  {
    if s[0] == '-' then -(ParseNat(s[1..]) as int) else ParseNat(s)
  }

  lemma IntRoundTrip(n: int)
    ensures ParseInt(IntToString(n)) == n
  {
    var s := IntToString(n);
    if n < 0 {
      var digits := NatToString(-n);
      assert s[1..] == digits;
      NatRoundTrip(-n);
      assert ParseInt(s) == -(ParseNat(digits) as int);
    } else {
      NatRoundTrip(n);
      assert ParseInt(s) == ParseNat(NatToString(n));
    }
  }

  /** Distinct integers have distinct decimal forms. */
  lemma IntToStringInjective(a: int, b: int)
    requires IntToString(a) == IntToString(b)
    ensures a == b
  {
    IntRoundTrip(a);
    IntRoundTrip(b);
  }

  /** The year of the fixed-year script. */
  lemma KnownYear()
    ensures IntToString(2026) == "2026"
  {
    assert NatToString(2) == "2";
    assert NatToString(20) == NatToString(2) + "0";
    assert NatToString(202) == NatToString(20) + "2";
    assert NatToString(2026) == NatToString(202) + "6";
  }
}

=== FILE: geometry.dfy ===
/**
  Page geometry: the inner area inside the margins is split into two rows of
  six panels; panel `(row, col)` shows month `row * 6 + col + 1`.  Inside a
  panel, the border is inset by a fixed amount and the seven day columns share
  what is left of the width.

  The program divides with floor division; every divisor here is positive, so
  Dafny's Euclidean `/` gives the same quotient.
 */
module Geometry {
  import opened Config

  /** The panel grid: two rows of six.  Arithmetic below writes these
      numbers, and the seven of `DaysPerWeek`, as literals, which keeps the
      verifier's arithmetic linear. */
  const Rows := 2
  const Columns := 6

  /** Distance of the panel border from the panel's edges. */
  const BorderInset := 5

  /** Days in a week: the number of grid columns. */
  const DaysPerWeek := 7

  function InnerWidth(l: Layout): int {
    l.width - l.leftMargin - l.rightMargin
  }

  function InnerHeight(l: Layout): int {
    l.height - l.topMargin - l.bottomMargin
  }

  function PanelWidth(l: Layout): (w: int)
    ensures InnerWidth(l) >= 0 ==> 0 <= 6 * w <= InnerWidth(l) < 6 * (w + 1)
  {
    InnerWidth(l) / 6
  }

  function PanelHeight(l: Layout): (h: int)
    ensures InnerHeight(l) >= 0 ==> 0 <= 2 * h <= InnerHeight(l) < 2 * (h + 1)
  {
    InnerHeight(l) / 2
  }

  /** Width of one day column: the panel width less both border insets,
      shared by seven columns. */
  function CellWidth(l: Layout): (w: int)
    ensures PanelWidth(l) >= 2 * BorderInset ==>
      0 <= 7 * w <= PanelWidth(l) - 2 * BorderInset < 7 * (w + 1)
  {
    (PanelWidth(l) - 2 * BorderInset) / 7
  }

  /** Month shown by panel `(row, col)`. */
  function MonthAt(row: int, col: int): int {
    6 * row + col + 1
  }

  function PanelRow(month: int): int {
    (month - 1) / 6
  }

  function PanelColumn(month: int): int {
    (month - 1) % 6
  }

  /** The row-major numbering is a bijection between the 2 x 6 panel positions
      and the months 1..12, with `PanelRow`/`PanelColumn` as its inverse. */
  lemma MonthAtBijective(row: int, col: int, month: int)
    ensures 0 <= row < Rows && 0 <= col < Columns ==>
      1 <= MonthAt(row, col) <= 12
      && PanelRow(MonthAt(row, col)) == row
      && PanelColumn(MonthAt(row, col)) == col
    ensures 1 <= month <= 12 ==>
      0 <= PanelRow(month) < Rows && 0 <= PanelColumn(month) < Columns
      && MonthAt(PanelRow(month), PanelColumn(month)) == month
  {
  }

  /** Left edge of the panels in column `col`. */
  function PanelX(l: Layout, col: int): int {
    col * PanelWidth(l) + l.leftMargin
  }

  /** Top edge of the panels in row `row`. */
  function PanelY(l: Layout, row: int): int {
    row * PanelHeight(l) + l.topMargin
  }

  /** A rectangle of pixels, `left <= x < right` and `top <= y < bottom`. */
  datatype Box = Box(left: int, top: int, right: int, bottom: int)

  predicate Within(inner: Box, outer: Box) {
    outer.left <= inner.left && inner.right <= outer.right
    && outer.top <= inner.top && inner.bottom <= outer.bottom
  }

  predicate Disjoint(a: Box, b: Box) {
    a.right <= b.left || b.right <= a.left || a.bottom <= b.top || b.bottom <= a.top
  }

  /** The area inside the margins. */
  function InnerBox(l: Layout): Box {
    Box(l.leftMargin, l.topMargin, l.width - l.rightMargin, l.height - l.bottomMargin)
  }

  /** The box the panel of `month` occupies. */
  function PanelBox(l: Layout, month: int): Box {
    var x, y := PanelX(l, PanelColumn(month)), PanelY(l, PanelRow(month));
    Box(x, y, x + PanelWidth(l), y + PanelHeight(l))
  }

  /** Slot `i` of `n` equal slots of width `w` ends within `n * w`. */
  lemma SlotWithin(i: int, n: int, w: int)
    requires 0 <= i < n && w >= 0
    ensures 0 <= i * w && i * w + w <= n * w
  {
    var d := n - i - 1;
    assert n * w == (i + 1 + d) * w;
    assert 0 <= d * w;
  }

  /** Distinct slots of equal width do not overlap. */
  lemma SlotsApart(i: int, j: int, w: int)
    requires i < j && w >= 0
    ensures i * w + w <= j * w
  {
    var d := j - i - 1;
    assert d * w >= 0;
    assert j * w == (i + 1) * w + d * w;
    assert (i + 1) * w == i * w + w;
  }

  /** The twelve panels stay inside the margins. */
  lemma PanelWithin(l: Layout, month: int)
    requires InnerWidth(l) >= 0 && InnerHeight(l) >= 0
    requires 1 <= month <= 12
    ensures Within(PanelBox(l, month), InnerBox(l))
  {
    SlotWithin(PanelColumn(month), Columns, PanelWidth(l));
    SlotWithin(PanelRow(month), Rows, PanelHeight(l));
  }

  /** No two panels overlap. */
  lemma PanelsDisjoint(l: Layout, m1: int, m2: int)
    requires InnerWidth(l) >= 0 && InnerHeight(l) >= 0
    requires 1 <= m1 <= 12 && 1 <= m2 <= 12 && m1 != m2
    ensures Disjoint(PanelBox(l, m1), PanelBox(l, m2))
  {
    var w, h := PanelWidth(l), PanelHeight(l);
    var c1, c2, r1, r2 := PanelColumn(m1), PanelColumn(m2), PanelRow(m1), PanelRow(m2);
    MonthAtBijective(r1, c1, m1);
    MonthAtBijective(r2, c2, m2);
    if c1 < c2 {
      SlotsApart(c1, c2, w);
    } else if c2 < c1 {
      SlotsApart(c2, c1, w);
    } else if r1 < r2 {
      SlotsApart(r1, r2, h);
    } else {
      assert r2 < r1;
      SlotsApart(r2, r1, h);
    }
  }

  /** With the settings module's numbers: an inner area of 3740 x 1760 split
      into panels of 623 x 880 with day columns 87 wide, and every panel box
      inside [50, 3790] x [200, 1960]. */
  lemma GeneratorGeometry(month: int)
    requires 1 <= month <= 12
    ensures InnerWidth(GeneratorLayout) == 3740 && InnerHeight(GeneratorLayout) == 1760
    ensures PanelWidth(GeneratorLayout) == 623 && PanelHeight(GeneratorLayout) == 880
    ensures CellWidth(GeneratorLayout) == 87
    ensures Within(PanelBox(GeneratorLayout, month), Box(50, 200, 3790, 1960))
  {
    PanelWithin(GeneratorLayout, month);
  }
}

=== FILE: grid_loop.dfy ===
/**
  The week loop of a month panel.  For each week of the grid it draws the
  numbers of the non-blank cells, left to right, in the current row; then one
  separator line a cell height lower; then the row moves down a cell height.

  What a single day cell or separator looks like is a parameter here, so the
  statements below are about the loop alone: which cells it draws, in which
  row and column, and in what order.
 */
module GridLoop {
  import opened Seqs
  import opened Commands
  import opened Civil
  import opened MonthGrid

  /** Height of a week row.  Where it multiplies it is written as the literal
      100, which keeps the verifier's arithmetic linear. */
  const CellHeight := 100

  /** What a day cell draws, given the top of its row, its column and its day. */
  type CellDrawer = (int, int, int) -> Command

  /** What a separator draws, given its height. */
  type LineDrawer = int -> Command

  ghost predicate DrawsTexts(cell: CellDrawer) {
    forall rowY, i, day :: KindOf(cell(rowY, i, day)) == TextKind
  }

  ghost predicate DrawsLines(sep: LineDrawer) {
    forall lineY :: KindOf(sep(lineY)) == LineKind
  }

  /** Top of week row `w` when the first week row is at `startY`. */
  function RowTop(startY: int, w: int): int {
    startY + 100 * w
  }

  /** What column `i` of `week` draws: its day number, or nothing when the
      cell is blank. */
  function WeekCell(cell: CellDrawer, week: seq<int>, rowY: int): int -> seq<Command> {
    i => if 0 <= i < |week| && week[i] != 0 then [cell(rowY, i, week[i])] else []
  }

  /** The day numbers of one week, left to right, in the row at `rowY`. */
  function WeekCommands(cell: CellDrawer, week: seq<int>, rowY: int): seq<Command> {
    ConcatRange(WeekCell(cell, week, rowY), 0, |week|)
  }

  /** What week `w` of the loop draws: its day numbers in its row, then the
      separator one cell height below the top of that row. */
  function WeekBlock(cell: CellDrawer, sep: LineDrawer, weeks: seq<seq<int>>, startY: int): int -> seq<Command> {
    w => if 0 <= w < |weeks|
         then WeekCommands(cell, weeks[w], RowTop(startY, w)) + [sep(RowTop(startY, w) + CellHeight)]
         else []
  }

  /** The week loop, with the first week row at `startY`. */
  function GridCommands(cell: CellDrawer, sep: LineDrawer, weeks: seq<seq<int>>, startY: int): seq<Command> {
    ConcatRange(WeekBlock(cell, sep, weeks, startY), 0, |weeks|)
  }

  // Reference descriptions of what the loop draws.

  /** One separator per week, at the bottom of each week row. */
  function Separators(sep: LineDrawer, startY: int, n: nat): (r: seq<Command>)
    ensures |r| == n
  {
    seq(n, w => sep(RowTop(startY, w + 1)))
  }

  /** What day `day` of a month whose first `lead` cells are blank draws: the
      day sits in flat cell `lead + day - 1`, that is in column
      `(lead + day - 1) % 7` of week row `(lead + day - 1) / 7`. */
  function RunText(cell: CellDrawer, startY: int, lead: int, day: int): Command {
    var k := lead + day - 1;
    cell(RowTop(startY, k / 7), k % 7, day)
  }

  /** What the days 1..days draw, in order. */
  function RunTexts(cell: CellDrawer, startY: int, lead: int, days: nat): (r: seq<Command>)
    ensures |r| == days
  {
    seq(days, k => RunText(cell, startY, lead, k + 1))
  }

  /** What flat cell `j` of a month's run draws when the run is drawn week by
      week: its day in column `j % 7` of week row `j / 7`, or nothing for a
      blank cell. */
  function FlatCell(cell: CellDrawer, startY: int, cells: seq<int>): int -> seq<Command> {
    j => if 0 <= j < |cells| && cells[j] != 0 then [cell(RowTop(startY, j / 7), j % 7, cells[j])] else []
  }

  // Lines: one separator per week.

  /** A week draws texts only. */
  lemma WeekTexts(cell: CellDrawer, week: seq<int>, rowY: int)
    requires DrawsTexts(cell)
    ensures OfKind(WeekCommands(cell, week, rowY), TextKind) == WeekCommands(cell, week, rowY)
    ensures OfKind(WeekCommands(cell, week, rowY), LineKind) == []
    ensures OfKind(WeekCommands(cell, week, rowY), RectKind) == []
  {
    var f := WeekCell(cell, week, rowY);
    forall i | 0 <= i < |week|
      ensures EmitsKind(f, TextKind, i)
    {
      if week[i] != 0 {
        assert f(i) == [cell(rowY, i, week[i])];
      } else {
        assert f(i) == [];
      }
    }
    ConcatAllOfKind(f, 0, |week|, TextKind);
    OfKindUniform(WeekCommands(cell, week, rowY), TextKind);
  }

  /** What one week of the loop draws, kind by kind: its day texts, its
      separator, no rectangle. */
  lemma BlockKinds(cell: CellDrawer, sep: LineDrawer, weeks: seq<seq<int>>, startY: int, w: int)
    requires DrawsTexts(cell) && DrawsLines(sep) && 0 <= w < |weeks|
    ensures OfKind(WeekBlock(cell, sep, weeks, startY)(w), TextKind) == WeekCommands(cell, weeks[w], RowTop(startY, w))
    ensures OfKind(WeekBlock(cell, sep, weeks, startY)(w), LineKind) == [sep(RowTop(startY, w) + CellHeight)]
    ensures OfKind(WeekBlock(cell, sep, weeks, startY)(w), RectKind) == []
  {
    var rowY := RowTop(startY, w);
    var wc, s := WeekCommands(cell, weeks[w], rowY), sep(rowY + CellHeight);
    assert WeekBlock(cell, sep, weeks, startY)(w) == wc + [s];
    assert KindOf(s) == LineKind;
    WeekTexts(cell, weeks[w], rowY);
    OfKindAppend(wc, [s], TextKind);
    OfKindAppend(wc, [s], LineKind);
    OfKindAppend(wc, [s], RectKind);
    OfKindSingle(s, TextKind);
    OfKindSingle(s, LineKind);
    OfKindSingle(s, RectKind);
    AppendEmpty(wc);
    AppendEmpty([s]);
  }

  /** Week `w` of the loop draws the separator at the bottom of week row `w`,
      and no rectangle. */
  lemma BlockLines(cell: CellDrawer, sep: LineDrawer, weeks: seq<seq<int>>, startY: int, w: int)
    requires DrawsTexts(cell) && DrawsLines(sep) && 0 <= w < |weeks|
    ensures EmitsAt(OfKindAt(WeekBlock(cell, sep, weeks, startY), LineKind), Separators(sep, startY, |weeks|), 0, w)
    ensures Silent(OfKindAt(WeekBlock(cell, sep, weeks, startY), RectKind), w)
  {
    BlockKinds(cell, sep, weeks, startY, w);
    assert RowTop(startY, w) + CellHeight == RowTop(startY, w + 1);
    assert Separators(sep, startY, |weeks|)[w - 0] == sep(RowTop(startY, w + 1));
  }

  /** The lines of the week loop are the separators, one per week in order,
      and it draws no rectangle. */
  lemma GridLines(cell: CellDrawer, sep: LineDrawer, weeks: seq<seq<int>>, startY: int)
    requires DrawsTexts(cell) && DrawsLines(sep)
    ensures OfKind(GridCommands(cell, sep, weeks, startY), LineKind) == Separators(sep, startY, |weeks|)
    ensures OfKind(GridCommands(cell, sep, weeks, startY), RectKind) == []
  {
    var f := WeekBlock(cell, sep, weeks, startY);
    forall w | 0 <= w < |weeks|
      ensures EmitsAt(OfKindAt(f, LineKind), Separators(sep, startY, |weeks|), 0, w)
      ensures Silent(OfKindAt(f, RectKind), w)
    {
      BlockLines(cell, sep, weeks, startY, w);
    }
    FilteredSingles(f, LineKind, Separators(sep, startY, |weeks|), 0, |weeks|);
    FilteredEmpty(f, RectKind, 0, |weeks|);
  }

  // Texts: the days in order, each in its own cell.

  lemma CellIndex(w: int, i: int)
    requires 0 <= i < 7
    ensures (i + 7 * w) / 7 == w
    ensures (i + 7 * w) % 7 == i
  {
  }

  /** Column `i` of a week that holds flat cells `7 * w .. 7 * w + 6` draws
      what flat cell `7 * w + i` draws. */
  lemma CellIsFlat(cell: CellDrawer, startY: int, cells: seq<int>, week: seq<int>, w: int, i: int)
    requires |week| == 7 && 0 <= w && 7 * w + 7 <= |cells| && 0 <= i < 7
    requires week[i] == cells[7 * w + i]
    ensures Agrees(WeekCell(cell, week, RowTop(startY, w)), FlatCell(cell, startY, cells), 7 * w, i)
  {
    var j := i + 7 * w;
    CellIndex(w, i);
    if week[i] != 0 {
      var c := cell(RowTop(startY, w), i, week[i]);
      assert WeekCell(cell, week, RowTop(startY, w))(i) == [c];
      assert FlatCell(cell, startY, cells)(j) == [c];
    } else {
      assert WeekCell(cell, week, RowTop(startY, w))(i) == [];
      assert FlatCell(cell, startY, cells)(j) == [];
    }
  }

  /** A week holding flat cells `7 * w .. 7 * w + 6`, drawn in week row `w`,
      draws what those flat cells draw. */
  lemma WeekIsFlat(cell: CellDrawer, startY: int, cells: seq<int>, week: seq<int>, w: int)
    requires |week| == 7 && 0 <= w && 7 * w + 7 <= |cells|
    requires forall i :: 0 <= i < 7 ==> week[i] == cells[7 * w + i]
    ensures WeekCommands(cell, week, RowTop(startY, w)) == ConcatRange(FlatCell(cell, startY, cells), 7 * w, 7 * w + 7)
  {
    var f, g := WeekCell(cell, week, RowTop(startY, w)), FlatCell(cell, startY, cells);
    forall i | 0 <= i < 7
      ensures Agrees(f, g, 7 * w, i)
    {
      CellIsFlat(cell, startY, cells, week, w, i);
    }
    ConcatRangeBlock(f, g, w);
  }

  /** The texts week `w` of the loop draws are what the flat cells
      `7 * w .. 7 * w + 6` draw. */
  lemma BlockIsFlat(cell: CellDrawer, sep: LineDrawer, startY: int, cells: seq<int>, w: int)
    requires DrawsTexts(cell) && DrawsLines(sep)
    requires |cells| % 7 == 0 && 0 <= w < |Weeks(cells)|
    ensures BlockOf(FlatCell(cell, startY, cells), OfKindAt(WeekBlock(cell, sep, Weeks(cells), startY), TextKind), w)
  {
    var weeks := Weeks(cells);
    var week := weeks[w];
    BlockKinds(cell, sep, weeks, startY, w);
    assert |week| == 7;
    assert forall i :: 0 <= i < 7 ==> week[i] == cells[7 * w + i];
    WeekIsFlat(cell, startY, cells, week, w);
  }

  /** The texts of the week loop are what the flat run draws cell by cell. */
  lemma GridTextsAreFlat(cell: CellDrawer, sep: LineDrawer, startY: int, cells: seq<int>)
    requires DrawsTexts(cell) && DrawsLines(sep)
    requires |cells| % 7 == 0
    ensures OfKind(GridCommands(cell, sep, Weeks(cells), startY), TextKind)
      == ConcatRange(FlatCell(cell, startY, cells), 0, |cells|)
  {
    var weeks := Weeks(cells);
    var n := |weeks|;
    var f, h := WeekBlock(cell, sep, weeks, startY), FlatCell(cell, startY, cells);
    forall w | 0 <= w < n
      ensures BlockOf(h, OfKindAt(f, TextKind), w)
    {
      BlockIsFlat(cell, sep, startY, cells, w);
    }
    FilteredSevens(f, TextKind, h, n);
    assert 7 * n == |cells|;
  }

  /** A blank flat cell draws nothing. */
  lemma FlatCellBlank(cell: CellDrawer, startY: int, cells: seq<int>, j: int)
    requires 0 <= j < |cells| ==> cells[j] == 0
    ensures Silent(FlatCell(cell, startY, cells), j)
  {
  }

  /** The flat cell of day `j - lead + 1` draws that day's run text. */
  lemma FlatCellDay(cell: CellDrawer, startY: int, cells: seq<int>, lead: nat, days: nat, j: int)
    requires 0 <= j < |cells| && lead <= j < lead + days
    requires cells[j] == j - lead + 1
    ensures EmitsAt(FlatCell(cell, startY, cells), RunTexts(cell, startY, lead, days), lead, j)
  {
    var k := j - lead;
    var c := cell(RowTop(startY, j / 7), j % 7, k + 1);
    assert lead + (k + 1) - 1 == j;
    assert RunText(cell, startY, lead, k + 1) == c;
    assert RunTexts(cell, startY, lead, days)[k] == c;
    assert FlatCell(cell, startY, cells)(j) == [c];
  }

  /** Over a whole flat run of a month, blanks around the days 1..n, the cells
      draw the texts of the days in order. */
  lemma MonthFlatTexts(cell: CellDrawer, startY: int, cells: seq<int>, lead: nat, days: nat)
    requires lead + days <= |cells|
    requires forall j :: 0 <= j < |cells| ==> cells[j] == CellValue(lead, days, j)
    ensures ConcatRange(FlatCell(cell, startY, cells), 0, |cells|) == RunTexts(cell, startY, lead, days)
  {
    var f, n := FlatCell(cell, startY, cells), |cells|;
    var run := RunTexts(cell, startY, lead, days);
    forall j | 0 <= j < lead
      ensures Silent(f, j)
    {
      FlatCellBlank(cell, startY, cells, j);
    }
    forall j | lead + days <= j < n
      ensures Silent(f, j)
    {
      FlatCellBlank(cell, startY, cells, j);
    }
    forall j | lead <= j < lead + days
      ensures EmitsAt(f, run, lead, j)
    {
      FlatCellDay(cell, startY, cells, lead, days, j);
    }
    ConcatRangeRun(f, run, lead, n);
  }

  /** The texts the loop draws over a month's grid are the days 1..n of the
      month in order, day `d` in column `(lead + d - 1) % 7` of week row
      `(lead + d - 1) / 7`; blank cells draw nothing. */
  lemma GridTexts(cell: CellDrawer, sep: LineDrawer, startY: int, year: int, month: int)
    requires DrawsTexts(cell) && DrawsLines(sep) && ValidMonth(month)
    ensures OfKind(GridCommands(cell, sep, MonthCalendar(year, month), startY), TextKind)
      == RunTexts(cell, startY, LeadingBlanks(year, month), DaysInMonth(year, month))
  {
    var cells := MonthDays(year, month);
    GridTextsAreFlat(cell, sep, startY, cells);
    MonthFlatTexts(cell, startY, cells, LeadingBlanks(year, month), DaysInMonth(year, month));
  }
}

=== FILE: month_grid.dfy ===
/**
  The month grid the renderer asks the calendar library for: a list of weeks,
  each of exactly seven cells, Monday first, holding the day numbers of the
  month and 0 in the padding cells before the 1st and after the last day.

  The library builds it in two steps, and so does this model: first the flat
  run of cells (blanks up to the weekday of the 1st, the days 1..n, blanks up
  to the end of the week), then that run cut into weeks of seven.
 */
module MonthGrid {
  import opened Civil

  /** The library's default first day of the week: Monday. */
  const FirstWeekday := 0

  /** Padding cells before the 1st. */
  function LeadingBlanks(year: int, month: int): (n: nat)
    requires ValidMonth(month)
    ensures n < 7
  {
    (Weekday(year, month, 1) - FirstWeekday) % 7
  }

  /** Padding cells after the last day, up to the end of its week. */
  function TrailingBlanks(year: int, month: int): (n: nat)
    requires ValidMonth(month)
    ensures n < 7
  {
    (FirstWeekday - Weekday(year, month, 1) - DaysInMonth(year, month)) % 7
  }

  /** What the flat run holds at position `i`: day `i - lead + 1` inside the
      run of days, 0 elsewhere. */
  function CellValue(lead: int, days: int, i: int): int {
    if lead <= i < lead + days then i - lead + 1 else 0
  }

  function Blanks(n: nat): seq<int> {
    seq(n, _ => 0)
  }

  /** The days 1, 2, ..., n. */
  function DayRun(n: nat): seq<int> {
    seq(n, i => i + 1)
  }

  lemma PaddingFillsWeeks(lead: int, days: int, trail: int)
    requires 0 <= lead < 7 && days >= 0
    requires trail == (FirstWeekday - lead - days) % 7
    ensures (lead + days + trail) % 7 == 0
  {
    var t := FirstWeekday - lead - days;
    assert t == 7 * (t / 7) + trail;
    assert lead + days + trail == 7 * (-(t / 7));
  }

  /** The flat run of cells of a month, week after week. */
  function MonthDays(year: int, month: int): (cells: seq<int>)
    requires ValidMonth(month)
    ensures |cells| == LeadingBlanks(year, month) + DaysInMonth(year, month) + TrailingBlanks(year, month)
    ensures |cells| % 7 == 0
    ensures forall i :: 0 <= i < |cells| ==>
      cells[i] == CellValue(LeadingBlanks(year, month), DaysInMonth(year, month), i)
  {
    var lead, days, trail := LeadingBlanks(year, month), DaysInMonth(year, month), TrailingBlanks(year, month);
    PaddingFillsWeeks(lead, days, trail);
    Blanks(lead) + DayRun(days) + Blanks(trail)
  }

  /** Cuts a run of cells into consecutive weeks of seven. */
  function Weeks(cells: seq<int>): (weeks: seq<seq<int>>)
    requires |cells| % 7 == 0
    ensures 7 * |weeks| == |cells|
    ensures forall w :: 0 <= w < |weeks| ==> |weeks[w]| == 7
    ensures forall w, c :: 0 <= w < |weeks| && 0 <= c < 7 ==> weeks[w][c] == cells[7 * w + c]
    decreases |cells|
  {
    if |cells| == 0 then [] else [cells[..7]] + Weeks(cells[7..])
  }

  /** The week grid of a month. */
  function MonthCalendar(year: int, month: int): (grid: seq<seq<int>>)
    requires ValidMonth(month)
    ensures 4 <= |grid| <= 6
    ensures |grid| == (LeadingBlanks(year, month) + DaysInMonth(year, month) + 6) / 7
    ensures forall w :: 0 <= w < |grid| ==> |grid[w]| == 7
    ensures forall w, c :: 0 <= w < |grid| && 0 <= c < 7 ==>
      grid[w][c] == CellValue(LeadingBlanks(year, month), DaysInMonth(year, month), 7 * w + c)
  {
    Weeks(MonthDays(year, month))
  }

  /** The grid read row by row. */
  function Flatten(weeks: seq<seq<int>>): seq<int> {
    if |weeks| == 0 then [] else weeks[0] + Flatten(weeks[1..])
  }

  /** The non-zero cells, in order. */
  function NonZero(cells: seq<int>): seq<int> {
    if |cells| == 0 then []
    else (if cells[0] != 0 then [cells[0]] else []) + NonZero(cells[1..])
  }

  /** Reading the weeks row by row gives back the flat run. */
  lemma {:induction false} FlattenWeeks(cells: seq<int>)
    requires |cells| % 7 == 0
    ensures Flatten(Weeks(cells)) == cells
    decreases |cells|
  {
    if |cells| > 0 {
      FlattenWeeks(cells[7..]);
      assert Weeks(cells)[1..] == Weeks(cells[7..]);
    }
  }

  lemma {:induction false} NonZeroAppend(a: seq<int>, b: seq<int>)
    ensures NonZero(a + b) == NonZero(a) + NonZero(b)
    decreases |a|
  {
    if |a| > 0 {
      NonZeroAppend(a[1..], b);
      assert (a + b)[1..] == a[1..] + b;
    } else {
      assert a + b == b;
    }
  }

  lemma {:induction false} NonZeroBlanks(n: nat)
    ensures NonZero(Blanks(n)) == []
    decreases n
  {
    if n > 0 {
      NonZeroBlanks(n - 1);
      assert Blanks(n)[1..] == Blanks(n - 1);
    }
  }

  /** NonZero keeps a run of positive cells whole. */
  lemma {:induction false} NonZeroPositive(s: seq<int>)
    requires forall i :: 0 <= i < |s| ==> s[i] > 0
    ensures NonZero(s) == s
    decreases |s|
  {
    if |s| > 0 {
      NonZeroPositive(s[1..]);
    }
  }

  /** Read row by row, the non-zero cells of the grid are 1, 2, ...,
      DaysInMonth: every day once, in order, and nothing else. */
  lemma MonthCalendarReadsDays(year: int, month: int)
    requires ValidMonth(month)
    ensures NonZero(Flatten(MonthCalendar(year, month))) == DayRun(DaysInMonth(year, month))
    ensures |NonZero(Flatten(MonthCalendar(year, month)))| == DaysInMonth(year, month)
  {
    var lead, days, trail := LeadingBlanks(year, month), DaysInMonth(year, month), TrailingBlanks(year, month);
    PaddingFillsWeeks(lead, days, trail);
    FlattenWeeks(MonthDays(year, month));
    assert MonthDays(year, month) == Blanks(lead) + DayRun(days) + Blanks(trail);
    NonZeroAppend(Blanks(lead) + DayRun(days), Blanks(trail));
    NonZeroAppend(Blanks(lead), DayRun(days));
    NonZeroBlanks(lead);
    NonZeroBlanks(trail);
    NonZeroPositive(DayRun(days));
  }

  /** Where day `day` sits in the flat run of cells: after the leading
      blanks and the days before it. */
  function DayPosition(year: int, month: int, day: int): nat
    requires ValidDate(year, month, day)
  {
    LeadingBlanks(year, month) + day - 1
  }

  /** The column of day `day` is its weekday. */
  lemma DayColumn(year: int, month: int, day: int)
    requires ValidDate(year, month, day)
    ensures DayPosition(year, month, day) % 7 == Weekday(year, month, day)
  {
    assert LeadingBlanks(year, month) == Weekday(year, month, 1);
    WeekdayOfDay(year, month, day);
    assert DayPosition(year, month, day) == Weekday(year, month, 1) + day - 1;
  }

  /** Day `day` sits in week `DayPosition / 7`, in the column of its own
      weekday. */
  lemma DayPlacement(year: int, month: int, day: int)
    requires ValidDate(year, month, day)
    ensures DayPosition(year, month, day) / 7 < |MonthCalendar(year, month)|
    ensures MonthCalendar(year, month)[DayPosition(year, month, day) / 7][DayPosition(year, month, day) % 7] == day
    ensures DayPosition(year, month, day) % 7 == Weekday(year, month, day)
  {
    var grid, lead, days := MonthCalendar(year, month), LeadingBlanks(year, month), DaysInMonth(year, month);
    var k := DayPosition(year, month, day);
    var w, c := k / 7, k % 7;
    assert k == 7 * w + c;
    assert 7 * |grid| == |MonthDays(year, month)|;
    assert w < |grid|;
    assert grid[w][c] == CellValue(lead, days, 7 * w + c);
    DayColumn(year, month, day);
  }

  /** The first week starts with blanks up to the weekday of the 1st. */
  lemma FirstDayColumn(year: int, month: int)
    requires ValidMonth(month)
    ensures MonthCalendar(year, month)[0][Weekday(year, month, 1)] == 1
    ensures forall c :: 0 <= c < Weekday(year, month, 1) ==> MonthCalendar(year, month)[0][c] == 0
  {
    assert LeadingBlanks(year, month) == Weekday(year, month, 1);
  }

  /** Every week holds at least one day: the grid has no empty row. */
  lemma NoEmptyWeek(year: int, month: int, w: int)
    requires ValidMonth(month)
    requires 0 <= w < |MonthCalendar(year, month)|
    ensures exists c :: 0 <= c < 7 && MonthCalendar(year, month)[w][c] != 0
  {
    var lead, days := LeadingBlanks(year, month), DaysInMonth(year, month);
    var grid := MonthCalendar(year, month);
    if w == 0 {
      assert grid[0][lead] == 1;
    } else {
      assert grid[w][0] == CellValue(lead, days, 7 * w);
    }
  }

  /** Week `w` of a month, cell by cell. */
  lemma WeekCells(year: int, month: int, w: int)
    requires ValidMonth(month) && 0 <= w < |MonthCalendar(year, month)|
    ensures var lead, days := LeadingBlanks(year, month), DaysInMonth(year, month);
      MonthCalendar(year, month)[w]
      == [CellValue(lead, days, 7 * w), CellValue(lead, days, 7 * w + 1), CellValue(lead, days, 7 * w + 2),
          CellValue(lead, days, 7 * w + 3), CellValue(lead, days, 7 * w + 4), CellValue(lead, days, 7 * w + 5),
          CellValue(lead, days, 7 * w + 6)]
  {
    var week := MonthCalendar(year, month)[w];
    SevenCells(week);
  }

  lemma SevenCells(r: seq<int>)
    requires |r| == 7
    ensures r == [r[0], r[1], r[2], r[3], r[4], r[5], r[6]]
  {
  }

  /** January 2026 starts on a Thursday and spans five weeks. */
  lemma KnownJanuary()
    ensures MonthCalendar(2026, 1)[0] == [0, 0, 0, 1, 2, 3, 4]
    ensures |MonthCalendar(2026, 1)| == 5
    ensures MonthCalendar(2026, 1)[4] == [26, 27, 28, 29, 30, 31, 0]
  {
    KnownWeekdays();
    assert LeadingBlanks(2026, 1) == 3 && DaysInMonth(2026, 1) == 31;
    WeekCells(2026, 1, 0);
    WeekCells(2026, 1, 4);
  }

  /** February of the leap year 2024 shows 29 days, of 2023 only 28. */
  lemma KnownFebruaries()
    ensures |NonZero(Flatten(MonthCalendar(2024, 2)))| == 29
    ensures |NonZero(Flatten(MonthCalendar(2023, 2)))| == 28
  {
    MonthCalendarReadsDays(2024, 2);
    MonthCalendarReadsDays(2023, 2);
  }
}

=== FILE: options.dfy ===
/** An optional value, for arguments that may be omitted and settings that
    may be absent. */
module Options {

  datatype Option<+T> = None | Some(value: T) {

    /** The carried value, or `default` when there is none. */
    function GetOr(default: T): (r: T)
      ensures Some? ==> r == value
      ensures None? ==> r == default
    {
      match this
      case Some(v) => v
      case None => default
    }
  }
}

=== FILE: page.dfy ===
/**
  One wallpaper per theme: the year label in the top margin (for the
  theme-generating program only), then the twelve month panels, placed by a
  loop over two rows of six.  Every theme draws the same commands on its own
  background and is saved under a name built from the year and the theme's
  name.

  Text measurement belongs to the drawing library and comes in as the
  parameter `measure`; creating the output directory and writing the image
  files are effects outside this model, which returns the images instead.
 */
module Page {
  import opened Options
  import opened Config
  import opened Geometry
  import opened Decimal
  import opened Civil
  import opened Commands
  import opened Seqs
  import opened Panel

  /** Width and height of a text's bounding box. */
  datatype Extent = Extent(width: int, height: int)

  /** The drawing library's measurement of a text in a font. */
  type Measure = (FontRole, string) -> Extent

  /** The measured width of the title of `month`. */
  function TitleWidth(cfg: CalendarConfig, measure: Measure, month: int): int
    requires ValidMonth(month) && |cfg.monthNames| >= 12
  {
    measure(TitleFont, cfg.monthNames[month - 1]).width
  }

  /** The year, in the large font, centred on the canvas width and in the
      top margin; an odd leftover pixel goes to the right and bottom. */
  function YearLabel(cfg: CalendarConfig, year: int, measure: Measure): (c: Command)
    ensures c.Text? && c.text == IntToString(year) && c.font == YearFont && c.fill == cfg.palette.black
    ensures 2 * c.pos.x <= cfg.layout.width - measure(YearFont, IntToString(year)).width < 2 * c.pos.x + 2
    ensures 2 * c.pos.y <= cfg.layout.topMargin - measure(YearFont, IntToString(year)).height < 2 * c.pos.y + 2
  {
    var text := IntToString(year);
    var e := measure(YearFont, text);
    Text(Point((cfg.layout.width - e.width) / 2, (cfg.layout.topMargin - e.height) / 2), text, cfg.palette.black, YearFont)
  }

  /** The panel of `month`, drawn at its place in the grid of two rows of six. */
  function MonthPanel(cfg: CalendarConfig, year: int, measure: Measure, month: int): seq<Command>
    requires ValidMonth(month) && |cfg.monthNames| >= 12
  {
    var l := cfg.layout;
    DrawMonth(cfg, PanelX(l, PanelColumn(month)), PanelY(l, PanelRow(month)), month, year, TitleWidth(cfg, measure, month))
  }

  /** The panels of months 1..n, in month order. */
  function Panels(cfg: CalendarConfig, year: int, measure: Measure, n: nat): seq<Command>
    requires n <= 12 && |cfg.monthNames| >= 12
  {
    if n == 0 then [] else Panels(cfg, year, measure, n - 1) + MonthPanel(cfg, year, measure, n)
  }

  /** `s` is 1, 2, ..., |s|. */
  predicate Counting(s: seq<int>) {
    forall k :: 0 <= k < |s| ==> s[k] == k + 1
  }

  lemma CountingNext(s: seq<int>)
    requires Counting(s)
    ensures Counting(s + [|s| + 1])
  {
  }

  /** A panel drawer: the commands of the panel of a month drawn with its
      top-left corner at a point. */
  type Drawer = (int, int, int) -> seq<Command>

  /** The panels of months 1..n as `draw` draws them at their places. */
  function Placed(l: Layout, draw: Drawer, n: nat): seq<Command>
    requires n <= 12
  {
    if n == 0 then [] else Placed(l, draw, n - 1) + draw(PanelX(l, PanelColumn(n)), PanelY(l, PanelRow(n)), n)
  }

  /** The drawer of the generating programs: the month panel of `year`,
      with the title measured by `measure`. */
  function PanelDrawer(cfg: CalendarConfig, year: int, measure: Measure): Drawer {
    (x, y, month) => if ValidMonth(month) && |cfg.monthNames| >= 12 then DrawMonth(cfg, x, y, month, year, TitleWidth(cfg, measure, month)) else []
  }

  /** Placing the generating programs' drawer gives the panels in month
      order. */
  lemma {:induction false} PlacedPanels(cfg: CalendarConfig, year: int, measure: Measure, n: nat)
    requires n <= 12 && |cfg.monthNames| >= 12
    ensures Placed(cfg.layout, PanelDrawer(cfg, year, measure), n) == Panels(cfg, year, measure, n)
  {
    if n > 0 {
      PlacedPanels(cfg, year, measure, n - 1);
      var l := cfg.layout;
      assert PanelDrawer(cfg, year, measure)(PanelX(l, PanelColumn(n)), PanelY(l, PanelRow(n)), n) == MonthPanel(cfg, year, measure, n);
    }
  }

  lemma PlacedStep(l: Layout, draw: Drawer, drawn: seq<Command>, panel: seq<Command>, n: int)
    requires 1 <= n <= 12 && drawn == Placed(l, draw, n - 1)
    requires panel == draw(PanelX(l, PanelColumn(n)), PanelY(l, PanelRow(n)), n)
    ensures drawn + panel == Placed(l, draw, n)
  {
  }

  /** The loop's arithmetic for the panel at `(row, col)` lands on the place
      of its month. */
  lemma SlotOf(l: Layout, row: int, col: int)
    requires 0 <= row < 2 && 0 <= col < 6
    ensures col * ((l.width - l.leftMargin - l.rightMargin) / 6) + l.leftMargin == PanelX(l, PanelColumn(row * 6 + col + 1))
    ensures row * ((l.height - l.topMargin - l.bottomMargin) / 2) + l.topMargin == PanelY(l, PanelRow(row * 6 + col + 1))
  {
    var month := row * 6 + col + 1;
    MonthAtBijective(row, col, month);
    assert PanelColumn(month) == col && PanelRow(month) == row by {
      assert month == MonthAt(row, col);
    }
    var w, h := (l.width - l.leftMargin - l.rightMargin) / 6, (l.height - l.topMargin - l.bottomMargin) / 2;
    assert w == PanelWidth(l) && h == PanelHeight(l);
    assert PanelX(l, col) == col * w + l.leftMargin;
    assert PanelY(l, row) == row * h + l.topMargin;
  }

  /** One step of the placement loop: the panel at `(row, col)` shows month
      `row * 6 + col + 1` and is drawn at `(col * panel width + left margin,
      row * panel height + top margin)`, which is that month's place. */
  method PlaceMonth(l: Layout, draw: Drawer, row: int, col: int, drawn: seq<Command>) returns (month: int, cmds: seq<Command>)
    requires 0 <= row < 2 && 0 <= col < 6
    requires drawn == Placed(l, draw, 6 * row + col)
    ensures month == 6 * row + col + 1
    ensures cmds == Placed(l, draw, month)
  {
    month := row * 6 + col + 1;
    var panelWidth, panelHeight := (l.width - l.leftMargin - l.rightMargin) / 6, (l.height - l.topMargin - l.bottomMargin) / 2;
    var x, y := col * panelWidth + l.leftMargin, row * panelHeight + l.topMargin;
    SlotOf(l, row, col);
    var panel := draw(x, y, month);
    PlacedStep(l, draw, drawn, panel, month);
    cmds := drawn + panel;
  }

  /** The placement loop: rows outside, columns inside.  It visits the
      months 1..12 once each, in order, and so draws the panels in month
      order. */
  method DrawPanels(l: Layout, draw: Drawer) returns (months: seq<int>, cmds: seq<Command>)
    ensures |months| == 12 && Counting(months)
    ensures cmds == Placed(l, draw, 12)
  {
    months, cmds := [], [];
    var row := 0;
    while row < 2
      invariant 0 <= row <= 2
      invariant |months| == 6 * row && Counting(months)
      invariant cmds == Placed(l, draw, 6 * row)
    {
      var col := 0;
      while col < 6
        invariant 0 <= col <= 6
        invariant |months| == 6 * row + col && Counting(months)
        invariant cmds == Placed(l, draw, 6 * row + col)
      {
        var month;
        month, cmds := PlaceMonth(l, draw, row, col, cmds);
        CountingNext(months);
        months := months + [month];
        col := col + 1;
      }
      row := row + 1;
    }
  }

  /** The year label, when the program writes one. */
  function YearPart(cfg: CalendarConfig, year: int, measure: Measure): seq<Command> {
    if cfg.yearLabel then [YearLabel(cfg, year, measure)] else []
  }

  /** Everything drawn on one wallpaper. */
  function PageCommands(cfg: CalendarConfig, year: int, measure: Measure): seq<Command>
    requires |cfg.monthNames| >= 12
  {
    YearPart(cfg, year, measure) + Panels(cfg, year, measure, 12)
  }

  /** A saved wallpaper: its file, canvas size, background and drawing. */
  datatype Image = Image(file: string, width: int, height: int, background: Rgb, commands: seq<Command>)

  function DirPrefix(dir: Option<string>): string {
    match dir
    case Some(d) => d + "/"
    case None => ""
  }

  /** `<year>_calendar_`, the part of a file name fixed by the year. */
  function YearStem(year: int): string {
    IntToString(year) + "_calendar_"
  }

  /** `<year>_calendar_<name>.png`. */
  function BaseName(year: int, name: string): string {
    YearStem(year) + name + ".png"
  }

  /** `<dir>/<year>_calendar_<name>.png`, or without the directory part. */
  function FileName(dir: Option<string>, year: int, name: string): (f: string)
    ensures |DirPrefix(dir)| + 4 <= |f| && f[..|DirPrefix(dir)|] == DirPrefix(dir)
    ensures f[|f| - 4..] == ".png"
  {
    DirPrefix(dir) + BaseName(year, name)
  }

  /** One wallpaper per background, each drawing `cmds` on a canvas of the
      configured size, saved as the theme name at the background's index. */
  function Themes(cfg: CalendarConfig, year: int, cmds: seq<Command>): (images: seq<Image>)
    requires |cfg.backgrounds| <= |cfg.colorNames|
    ensures |images| == |cfg.backgrounds|
    ensures forall i :: 0 <= i < |images| ==>
      images[i].file == FileName(cfg.outputDir, year, cfg.colorNames[i]) && images[i].background == cfg.backgrounds[i]
    ensures forall i :: 0 <= i < |images| ==>
      images[i].width == cfg.layout.width && images[i].height == cfg.layout.height && images[i].commands == cmds
  {
    seq(|cfg.backgrounds|, i requires 0 <= i < |cfg.backgrounds| =>
      Image(FileName(cfg.outputDir, year, cfg.colorNames[i]), cfg.layout.width, cfg.layout.height, cfg.backgrounds[i], cmds))
  }

  /** One wallpaper per background, in the order of the backgrounds.  The
      theme names are read at the backgrounds' indices, so there must be at
      least as many names as backgrounds. */
  function GenerateCalendar(cfg: CalendarConfig, year: int, measure: Measure): (images: seq<Image>)
    requires |cfg.monthNames| >= 12 && |cfg.backgrounds| <= |cfg.colorNames|
    ensures |images| == |cfg.backgrounds|
    ensures forall i :: 0 <= i < |images| ==>
      images[i].file == FileName(cfg.outputDir, year, cfg.colorNames[i]) && images[i].background == cfg.backgrounds[i]
    ensures forall i :: 0 <= i < |images| ==>
      images[i].width == cfg.layout.width && images[i].height == cfg.layout.height
      && images[i].commands == PageCommands(cfg, year, measure)
  {
    Themes(cfg, year, PageCommands(cfg, year, measure))
  }

  // What the wallpapers show.

  /** All themes draw the same commands on the same canvas size; they differ
      only in background and file. */
  lemma ThemesShareCommands(cfg: CalendarConfig, year: int, measure: Measure, i: int, j: int)
    requires |cfg.monthNames| >= 12 && |cfg.backgrounds| <= |cfg.colorNames|
    requires 0 <= i < |cfg.backgrounds| && 0 <= j < |cfg.backgrounds|
    ensures GenerateCalendar(cfg, year, measure)[i].commands == GenerateCalendar(cfg, year, measure)[j].commands
    ensures GenerateCalendar(cfg, year, measure)[i].width == GenerateCalendar(cfg, year, measure)[j].width
    ensures GenerateCalendar(cfg, year, measure)[i].height == GenerateCalendar(cfg, year, measure)[j].height
    ensures GenerateCalendar(cfg, year, measure)[i].background == cfg.backgrounds[i]
  {
  }

  /** Theme names past the last background are never read: dropping them
      leaves the wallpapers as they were. */
  lemma ExtraNamesUnused(cfg: CalendarConfig, year: int, measure: Measure)
    requires |cfg.monthNames| >= 12 && |cfg.backgrounds| <= |cfg.colorNames|
    ensures GenerateCalendar(cfg, year, measure)
      == GenerateCalendar(cfg.(colorNames := cfg.colorNames[..|cfg.backgrounds|]), year, measure)
  {
    PageReadsStyle(cfg, cfg.(colorNames := cfg.colorNames[..|cfg.backgrounds|]), year, measure);
  }

  /** Files for two different theme names are different. */
  lemma FileNameInjective(dir: Option<string>, year: int, n1: string, n2: string)
    requires n1 != n2
    ensures FileName(dir, year, n1) != FileName(dir, year, n2)
  {
    MiddleCancel(YearStem(year), n1, n2, ".png");
    PrefixCancel(DirPrefix(dir), BaseName(year, n1), BaseName(year, n2));
  }

  /** Distinct theme names give distinct files for one year. */
  lemma ThemeFilesDistinct(cfg: CalendarConfig, year: int, measure: Measure, i: int, j: int)
    requires |cfg.monthNames| >= 12 && |cfg.backgrounds| <= |cfg.colorNames|
    requires Distinct(cfg.colorNames)
    requires 0 <= i < |cfg.backgrounds| && 0 <= j < |cfg.backgrounds| && i != j
    ensures GenerateCalendar(cfg, year, measure)[i].file != GenerateCalendar(cfg, year, measure)[j].file
  {
    FileNameInjective(cfg.outputDir, year, cfg.colorNames[i], cfg.colorNames[j]);
  }

  /** The border of a month's panel, placed at the month's place, is its
      box inset by 5 pixels. */
  lemma BorderInBox(cfg: CalendarConfig, month: int)
    ensures BorderCommand(cfg, PanelX(cfg.layout, PanelColumn(month)), PanelY(cfg.layout, PanelRow(month)))
      == Rect(Point(PanelBox(cfg.layout, month).left + 5, PanelBox(cfg.layout, month).top + 5),
              Point(PanelBox(cfg.layout, month).right - 5, PanelBox(cfg.layout, month).bottom - 5),
              cfg.palette.black, 2)
  {
  }

  /** The one rectangle of each panel is its border: the box of its month
      inset by 5 pixels, drawn 2 pixels wide in black. */
  lemma MonthPanelBorder(cfg: CalendarConfig, year: int, measure: Measure, month: int)
    requires ValidMonth(month) && |cfg.monthNames| >= 12
    ensures |OfKind(MonthPanel(cfg, year, measure, month), RectKind)| == 1
    ensures OfKind(MonthPanel(cfg, year, measure, month), RectKind)[0]
      == Rect(Point(PanelBox(cfg.layout, month).left + 5, PanelBox(cfg.layout, month).top + 5),
              Point(PanelBox(cfg.layout, month).right - 5, PanelBox(cfg.layout, month).bottom - 5),
              cfg.palette.black, 2)
  {
    var l := cfg.layout;
    var x, y := PanelX(l, PanelColumn(month)), PanelY(l, PanelRow(month));
    DrawMonthRects(cfg, x, y, month, year, TitleWidth(cfg, measure, month));
    BorderInBox(cfg, month);
  }

  /** No panel writes in the year font. */
  lemma {:induction false} PanelsHaveNoYearText(cfg: CalendarConfig, year: int, measure: Measure, n: nat)
    requires n <= 12 && |cfg.monthNames| >= 12
    ensures NoneInFont(Panels(cfg, year, measure, n), YearFont)
  {
    if n > 0 {
      var l := cfg.layout;
      PanelsHaveNoYearText(cfg, year, measure, n - 1);
      DrawMonthFonts(cfg, PanelX(l, PanelColumn(n)), PanelY(l, PanelRow(n)), n, year, TitleWidth(cfg, measure, n));
      NoneInFontAppend(Panels(cfg, year, measure, n - 1), MonthPanel(cfg, year, measure, n), YearFont);
    }
  }

  /** The year is written once, first, when the program writes it, and
      otherwise not at all. */
  lemma YearLabelOnce(cfg: CalendarConfig, year: int, measure: Measure)
    requires |cfg.monthNames| >= 12
    ensures cfg.yearLabel ==> PageCommands(cfg, year, measure)[0] == YearLabel(cfg, year, measure)
    ensures cfg.yearLabel ==> NoneInFont(PageCommands(cfg, year, measure)[1..], YearFont)
    ensures !cfg.yearLabel ==> NoneInFont(PageCommands(cfg, year, measure), YearFont)
  {
    var panels := Panels(cfg, year, measure, 12);
    PanelsHaveNoYearText(cfg, year, measure, 12);
    if cfg.yearLabel {
      assert PageCommands(cfg, year, measure)[1..] == panels;
    } else {
      assert PageCommands(cfg, year, measure) == panels;
    }
  }

  /** Two settings with the same geometry, colours and month names draw the
      same panels. */
  lemma {:induction false} PanelsReadStyle(c1: CalendarConfig, c2: CalendarConfig, year: int, measure: Measure, n: nat)
    requires n <= 12 && |c1.monthNames| >= 12
    requires c1.layout == c2.layout && c1.palette == c2.palette && c1.monthNames == c2.monthNames
    ensures Panels(c1, year, measure, n) == Panels(c2, year, measure, n)
  {
    if n > 0 {
      var l := c1.layout;
      PanelsReadStyle(c1, c2, year, measure, n - 1);
      DrawMonthReadsStyle(c1, c2, PanelX(l, PanelColumn(n)), PanelY(l, PanelRow(n)), n, year, TitleWidth(c1, measure, n));
      assert MonthPanel(c1, year, measure, n) == MonthPanel(c2, year, measure, n);
    }
  }

  // The two programs.

  /** The script's one theme, whatever it draws. */
  lemma ScriptThemes(year: int, cmds: seq<Command>)
    ensures Themes(ScriptConfig, year, cmds) == [Image(IntToString(year) + "_calendar_wallpaper.png", 3840, 2160, Rgb(245, 245, 245), cmds)]
  {
    assert FileName(None, year, "wallpaper") == IntToString(year) + "_calendar_wallpaper.png";
  }

  /** The fixed-year script writes one file, `<year>_calendar_wallpaper.png`
      in the working directory, on the light-gray background, with the
      twelve panels and no year label.  It runs for `ScriptYear`, whose
      decimal form is "2026" (`KnownYear`). */
  lemma ScriptOutput(year: int, measure: Measure)
    ensures |GenerateCalendar(ScriptConfig, year, measure)| == 1
    ensures GenerateCalendar(ScriptConfig, year, measure)[0]
      == Image(IntToString(year) + "_calendar_wallpaper.png", 3840, 2160, Rgb(245, 245, 245), Panels(ScriptConfig, year, measure, 12))
  {
    var cmds := PageCommands(ScriptConfig, year, measure);
    assert cmds == Panels(ScriptConfig, year, measure, 12);
    ScriptThemes(year, cmds);
  }

  /** The generating program's three themes, whatever they draw. */
  lemma GeneratorThemes(year: int, cmds: seq<Command>)
    ensures |Themes(GeneratorConfig, year, cmds)| == 3
    ensures Themes(GeneratorConfig, year, cmds)[0].file == FileName(Some("target"), year, "gray")
    ensures Themes(GeneratorConfig, year, cmds)[1].file == FileName(Some("target"), year, "ivory")
    ensures Themes(GeneratorConfig, year, cmds)[2].file == FileName(Some("target"), year, "taupe")
  {
  }

  /** The theme-generating program writes its three themes to the `target`
      directory, in the order gray, ivory, taupe. */
  lemma GeneratorFiles(year: int, measure: Measure)
    ensures |GenerateCalendar(GeneratorConfig, year, measure)| == 3
    ensures GenerateCalendar(GeneratorConfig, year, measure)[0].file == FileName(Some("target"), year, "gray")
    ensures GenerateCalendar(GeneratorConfig, year, measure)[1].file == FileName(Some("target"), year, "ivory")
    ensures GenerateCalendar(GeneratorConfig, year, measure)[2].file == FileName(Some("target"), year, "taupe")
  {
    GeneratorThemes(year, PageCommands(GeneratorConfig, year, measure));
  }

  /** Files for two different years are different. */
  lemma FileNameYearInjective(dir: Option<string>, y1: int, y2: int, name: string)
    requires y1 != y2
    ensures FileName(dir, y1, name) != FileName(dir, y2, name)
  {
    PrefixCancel(DirPrefix(dir), BaseName(y1, name), BaseName(y2, name));
    assert BaseName(y1, name) == YearStem(y1) + (name + ".png");
    assert BaseName(y2, name) == YearStem(y2) + (name + ".png");
    SuffixCancel(YearStem(y1), YearStem(y2), name + ".png");
    SuffixCancel(IntToString(y1), IntToString(y2), "_calendar_");
    if IntToString(y1) == IntToString(y2) {
      IntToStringInjective(y1, y2);
    }
  }

  /** The generating program's wallpapers are 3840 by 2160 pixels. */
  lemma GeneratorCanvas(year: int, measure: Measure)
    ensures forall i :: 0 <= i < |GenerateCalendar(GeneratorConfig, year, measure)| ==>
      GenerateCalendar(GeneratorConfig, year, measure)[i].width == 3840
      && GenerateCalendar(GeneratorConfig, year, measure)[i].height == 2160
  {
  }

  /** Files for two different directories are different. */
  lemma FileNameDirInjective(d1: string, d2: string, year: int, name: string)
    requires d1 != d2
    ensures FileName(Some(d1), year, name) != FileName(Some(d2), year, name)
  {
    SuffixCancel(d1 + "/", d2 + "/", BaseName(year, name));
    SuffixCancel(d1, d2, "/");
  }

  lemma YearPartReadsStyle(c1: CalendarConfig, c2: CalendarConfig, year: int, measure: Measure)
    requires c1.layout == c2.layout && c1.palette == c2.palette && c1.yearLabel == c2.yearLabel
    ensures YearPart(c1, year, measure) == YearPart(c2, year, measure)
  {
    assert YearLabel(c1, year, measure) == YearLabel(c2, year, measure);
  }

  /** The drawing reads only the geometry, colours, month names and whether
      the year is written: two settings that agree on these draw the same
      page, whatever their themes and directory. */
  lemma PageReadsStyle(c1: CalendarConfig, c2: CalendarConfig, year: int, measure: Measure)
    requires |c1.monthNames| >= 12
    requires c1.layout == c2.layout && c1.palette == c2.palette && c1.monthNames == c2.monthNames
    requires c1.yearLabel == c2.yearLabel
    ensures PageCommands(c1, year, measure) == PageCommands(c2, year, measure)
  {
    var y1, y2 := YearPart(c1, year, measure), YearPart(c2, year, measure);
    var p1, p2 := Panels(c1, year, measure, 12), Panels(c2, year, measure, 12);
    PanelsReadStyle(c1, c2, year, measure, 12);
    YearPartReadsStyle(c1, c2, year, measure);
    assert PageCommands(c1, year, measure) == y1 + p1;
    assert PageCommands(c2, year, measure) == y2 + p2;
  }

  /** For 2026 the year part of a file name is "2026". */
  lemma FileName2026(dir: Option<string>, name: string)
    ensures FileName(dir, 2026, name) == DirPrefix(dir) + "2026_calendar_" + name + ".png"
  {
    KnownYear();
    assert "2026" + "_calendar_" == "2026_calendar_";
  }

  /** The script's one file, for the year it runs, is the literal name it
      saves to, in the working directory. */
  lemma ScriptFileName()
    ensures FileName(ScriptConfig.outputDir, ScriptYear, ScriptConfig.colorNames[0]) == "2026_calendar_wallpaper.png"
  {
    FileName2026(None, "wallpaper");
  }

  /** For any year, a theme of the generating program shows the script's
      drawing of that year with the year label in front. */
  lemma ScriptMatchesGenerator(year: int, measure: Measure)
    ensures PageCommands(GeneratorConfig, year, measure)
      == [YearLabel(GeneratorConfig, year, measure)] + PageCommands(ScriptConfig, year, measure)
  {
    ScriptSharesGeneratorConstants();
    PanelsReadStyle(GeneratorConfig, ScriptConfig, year, measure, 12);
    assert PageCommands(ScriptConfig, year, measure) == Panels(ScriptConfig, year, measure, 12);
  }
}

=== FILE: panel.dfy ===
/**
  One month panel as the sequence of drawing commands it emits, in the order
  the renderer issues them: the inset border, the month title, the seven
  weekday headers, then week by week the day numbers followed by a separator
  line, and finally the eight vertical grid lines.

  Text measurement belongs to the drawing library; the measured title width
  comes in as a parameter.
 */
module Panel {
  import opened Civil
  import opened MonthGrid
  import opened Config
  import opened Geometry
  import opened Decimal
  import opened Seqs
  import opened Commands
  import opened GridLoop

  const BorderWidth := 2
  const GridLineWidth := 1
  /** Offsets below the panel top: the title, and the weekday header row. */
  const TitleTop := 20
  const HeaderTop := 120
  /** The first week row sits this far below the header row. */
  const GridGap := 80
  /** Fixed left shifts from the column centre, for header and day text. The
      day shift is the same for one- and two-digit numbers. */
  const HeaderShift := 15
  const DayShift := 10

  const WeekdayNames: seq<string> := ["Mon", "Tue", "Wed", "Thu", "Fri", "Sat", "Sun"]

  /** Header colour, chosen by the weekday's name. */
  function HeaderColour(p: Palette, name: string): Rgb {
    if name == "Sun" then p.red else if name == "Sat" then p.blue else p.black
  }

  /** Day colour, chosen by the grid column. */
  function DayColour(p: Palette, column: int): Rgb {
    if column == Sunday then p.red else if column == Saturday then p.blue else p.black
  }

  /** Choosing by name and choosing by column agree on every column: Sunday
      red, Saturday blue, the weekdays black. */
  lemma HeaderColourByColumn(p: Palette, i: int)
    requires 0 <= i < DaysPerWeek
    ensures HeaderColour(p, WeekdayNames[i]) == DayColour(p, i)
    ensures HeaderColour(p, WeekdayNames[i]) == p.red <== i == 6
    ensures HeaderColour(p, WeekdayNames[i]) == p.blue <== i == 5
  {
    assert WeekdayNames[i] == "Sun" <==> i == 6;
    assert WeekdayNames[i] == "Sat" <==> i == 5;
  }

  /** Left edge of day column `i` in the panel at `x`: the border inset and
      then `i` column widths (`ColumnXClosed` gives the product form). */
  function ColumnX(l: Layout, x: int, i: int): int
    decreases i
  {
    if i <= 0 then x + BorderInset else ColumnX(l, x, i - 1) + CellWidth(l)
  }

  /** Column `i` starts `i` column widths right of the inset border. */
  lemma {:induction false} ColumnXClosed(l: Layout, x: int, i: nat)
    ensures ColumnX(l, x, i) == x + BorderInset + i * CellWidth(l)
    decreases i
  {
    if i > 0 {
      ColumnXClosed(l, x, i - 1);
      assert (i - 1) * CellWidth(l) + CellWidth(l) == i * CellWidth(l);
    }
  }

  /** Top of the first week row in the panel at `y`: the header row's
      height plus the gap. */
  function GridTop(y: int): int {
    y + HeaderTop + GridGap
  }

  function BorderCommand(cfg: CalendarConfig, x: int, y: int): (c: Command)
    ensures c.Rect? && c.width == BorderWidth && c.outline == cfg.palette.black
    ensures PanelWidth(cfg.layout) >= 2 * BorderInset && PanelHeight(cfg.layout) >= 2 * BorderInset ==>
      x < c.topLeft.x <= c.bottomRight.x < x + PanelWidth(cfg.layout)
      && y < c.topLeft.y <= c.bottomRight.y < y + PanelHeight(cfg.layout)
  {
    Rect(Point(x + BorderInset, y + BorderInset),
         Point(x + PanelWidth(cfg.layout) - BorderInset, y + PanelHeight(cfg.layout) - BorderInset),
         cfg.palette.black, BorderWidth)
  }

  /** The month name, centred on the panel using its measured width. */
  function TitleCommand(cfg: CalendarConfig, x: int, y: int, month: int, titleWidth: int): (c: Command)
    requires ValidMonth(month) && |cfg.monthNames| >= 12
    ensures c.Text? && c.text == cfg.monthNames[month - 1] && c.fill == cfg.palette.black && c.font == TitleFont
    ensures 2 * (c.pos.x - x) <= PanelWidth(cfg.layout) - titleWidth < 2 * (c.pos.x - x) + 2
    ensures c.pos.y == y + TitleTop
  {
    Text(Point(x + (PanelWidth(cfg.layout) - titleWidth) / 2, y + TitleTop),
         cfg.monthNames[month - 1], cfg.palette.black, TitleFont)
  }

  function HeaderCommand(cfg: CalendarConfig, x: int, y: int, i: int): Command
    requires 0 <= i < DaysPerWeek
  {
    var name := WeekdayNames[i];
    Text(Point(ColumnX(cfg.layout, x, i) + CellWidth(cfg.layout) / 2 - HeaderShift, y + HeaderTop),
         name, HeaderColour(cfg.palette, name), DayFont)
  }

  /** The weekday header row, Monday first. */
  function HeaderCommands(cfg: CalendarConfig, x: int, y: int): (r: seq<Command>)
    ensures |r| == DaysPerWeek
    ensures forall i :: 0 <= i < DaysPerWeek ==>
      r[i].Text? && r[i].text == WeekdayNames[i] && r[i].fill == DayColour(cfg.palette, i) && r[i].font == DayFont
    ensures forall i :: 0 <= i < DaysPerWeek ==>
      r[i].pos == Point(x + BorderInset + i * CellWidth(cfg.layout) + CellWidth(cfg.layout) / 2 - HeaderShift, y + HeaderTop)
  {
    forall i | 0 <= i < DaysPerWeek
      ensures HeaderColour(cfg.palette, WeekdayNames[i]) == DayColour(cfg.palette, i)
      ensures ColumnX(cfg.layout, x, i) == x + BorderInset + i * CellWidth(cfg.layout)
    {
      HeaderColourByColumn(cfg.palette, i);
      ColumnXClosed(cfg.layout, x, i);
    }
    seq(DaysPerWeek, i requires 0 <= i < DaysPerWeek => HeaderCommand(cfg, x, y, i))
  }

  /** Text of the day number `day` in column `i` of the row at `rowY`. */
  function CellText(l: Layout, p: Palette, x: int, rowY: int, i: int, day: int): Command {
    Text(Point(ColumnX(l, x, i) + CellWidth(l) / 2 - DayShift, rowY),
         IntToString(day), DayColour(p, i), DayFont)
  }

  /** The gray separator across the panel at height `lineY`. */
  function SeparatorLine(l: Layout, p: Palette, x: int, lineY: int): Command {
    Line(Point(x + BorderInset, lineY), Point(x + PanelWidth(l) - BorderInset, lineY),
         p.gray, GridLineWidth)
  }

  /** The day cells of the panel at `x`, for the week loop. */
  function DayCell(l: Layout, p: Palette, x: int): CellDrawer {
    (rowY, i, day) => CellText(l, p, x, rowY, i, day)
  }

  /** The separators of the panel at `x`, for the week loop. */
  function Separator(l: Layout, p: Palette, x: int): LineDrawer {
    lineY => SeparatorLine(l, p, x, lineY)
  }

  /** Day cells are texts and separators are lines. */
  lemma PanelDrawers(l: Layout, p: Palette, x: int)
    ensures DrawsTexts(DayCell(l, p, x))
    ensures DrawsLines(Separator(l, p, x))
  {
  }

  function VerticalLine(cfg: CalendarConfig, x: int, top: int, bottom: int, i: int): Command {
    var lx := ColumnX(cfg.layout, x, i);
    Line(Point(lx, top), Point(lx, bottom), cfg.palette.gray, GridLineWidth)
  }

  /** The eight column boundaries, left to right, from `top` down to `bottom`. */
  function VerticalLines(cfg: CalendarConfig, x: int, top: int, bottom: int): (r: seq<Command>)
    ensures |r| == DaysPerWeek + 1
    ensures AllOfKind(r, LineKind)
    ensures forall i :: 0 <= i <= DaysPerWeek ==>
      r[i] == Line(Point(x + BorderInset + i * CellWidth(cfg.layout), top),
                   Point(x + BorderInset + i * CellWidth(cfg.layout), bottom), cfg.palette.gray, GridLineWidth)
  {
    forall i | 0 <= i <= DaysPerWeek
      ensures ColumnX(cfg.layout, x, i) == x + BorderInset + i * CellWidth(cfg.layout)
    {
      ColumnXClosed(cfg.layout, x, i);
    }
    seq(DaysPerWeek + 1, i => VerticalLine(cfg, x, top, bottom, i))
  }

  /** Everything drawn for `month` in the panel whose top-left corner is
      `(x, y)`, given the month's week rows `grid`.  The week loop starts at
      the first week row, `GridGap` below the header row; once it has
      advanced past the last week, one cell height back up is the top of the
      last week row, where the vertical lines end. */
  function DrawPanel(cfg: CalendarConfig, x: int, y: int, month: int, grid: seq<seq<int>>, titleWidth: int): (r: seq<Command>)
    requires ValidMonth(month) && |cfg.monthNames| >= 12
  {
    [BorderCommand(cfg, x, y), TitleCommand(cfg, x, y, month, titleWidth)]
    + HeaderCommands(cfg, x, y)
    + GridCommands(DayCell(cfg.layout, cfg.palette, x), Separator(cfg.layout, cfg.palette, x), grid, GridTop(y))
    + VerticalLines(cfg, x, y + HeaderTop, RowTop(GridTop(y), |grid| - 1))
  }

  /** Everything drawn for `month` of `year`: the panel over the month's
      calendar weeks. */
  function DrawMonth(cfg: CalendarConfig, x: int, y: int, month: int, year: int, titleWidth: int): (r: seq<Command>)
    requires ValidMonth(month) && |cfg.monthNames| >= 12
  {
    DrawPanel(cfg, x, y, month, MonthCalendar(year, month), titleWidth)
  }

  // What a panel shows, stated independently of the loops.

  /** The text of day `day`: its number, in the column of its weekday and
      coloured by it, in the week row of its flat cell. */
  function DayText(cfg: CalendarConfig, x: int, y: int, year: int, month: int, day: int): (c: Command)
    requires ValidDate(year, month, day)
    ensures c.Text? && c.font == DayFont
    ensures c.text == IntToString(day)
    ensures c.fill == DayColour(cfg.palette, Weekday(year, month, day))
    ensures c.pos.x == ColumnX(cfg.layout, x, Weekday(year, month, day)) + CellWidth(cfg.layout) / 2 - DayShift
    ensures c.pos.y == RowTop(GridTop(y), DayPosition(year, month, day) / 7)
  {
    var k := LeadingBlanks(year, month) + day - 1;
    DayColumn(year, month, day);
    CellText(cfg.layout, cfg.palette, x, RowTop(GridTop(y), k / 7), k % 7, day)
  }

  /** The days of the month, 1 to the last, each as `DayText`. */
  function DayTexts(cfg: CalendarConfig, x: int, y: int, year: int, month: int): (r: seq<Command>)
    requires ValidMonth(month)
    ensures |r| == DaysInMonth(year, month)
    ensures forall k :: 0 <= k < |r| ==> r[k].Text? && r[k].text == IntToString(k + 1) && r[k].font == DayFont
  {
    seq(DaysInMonth(year, month), k requires 0 <= k < DaysInMonth(year, month) => DayText(cfg, x, y, year, month, k + 1))
  }

  /** The panel's separators, one per week at the bottom of each week row. */
  function SeparatorLines(cfg: CalendarConfig, x: int, y: int, weeks: nat): (r: seq<Command>)
    ensures |r| == weeks
    ensures forall w :: 0 <= w < weeks ==> r[w] == SeparatorLine(cfg.layout, cfg.palette, x, RowTop(GridTop(y), w + 1))
  {
    Separators(Separator(cfg.layout, cfg.palette, x), GridTop(y), weeks)
  }

  /** The lines a panel over `weeks` week rows should draw: the separators,
      then the eight vertical lines from the header row down to the top of
      the last week row. */
  function PanelLineList(cfg: CalendarConfig, x: int, y: int, weeks: nat): (r: seq<Command>)
    ensures |r| == weeks + DaysPerWeek + 1
  {
    SeparatorLines(cfg, x, y, weeks) + VerticalLines(cfg, x, y + HeaderTop, RowTop(GridTop(y), weeks - 1))
  }

  /** The texts a month's panel should draw: the title, the weekday headers,
      then the days 1..n. */
  function MonthTextList(cfg: CalendarConfig, x: int, y: int, month: int, year: int, titleWidth: int): (r: seq<Command>)
    requires ValidMonth(month) && |cfg.monthNames| >= 12
    ensures |r| == 1 + DaysPerWeek + DaysInMonth(year, month)
  {
    [TitleCommand(cfg, x, y, month, titleWidth)] + HeaderCommands(cfg, x, y) + DayTexts(cfg, x, y, year, month)
  }

  /** The text of day `day` is what the loop's day cell draws for it. */
  lemma DayTextIsRunText(cfg: CalendarConfig, x: int, y: int, year: int, month: int, day: int)
    requires ValidDate(year, month, day)
    ensures DayText(cfg, x, y, year, month, day) == RunText(DayCell(cfg.layout, cfg.palette, x), GridTop(y), LeadingBlanks(year, month), day)
  {
  }

  /** The day texts of a month are what the loop's day cells draw for the
      days 1..n. */
  lemma DayTextsAreRun(cfg: CalendarConfig, x: int, y: int, year: int, month: int)
    requires ValidMonth(month)
    ensures DayTexts(cfg, x, y, year, month)
      == RunTexts(DayCell(cfg.layout, cfg.palette, x), GridTop(y), LeadingBlanks(year, month), DaysInMonth(year, month))
  {
    var a, b := DayTexts(cfg, x, y, year, month), RunTexts(DayCell(cfg.layout, cfg.palette, x), GridTop(y), LeadingBlanks(year, month), DaysInMonth(year, month));
    forall k | 0 <= k < |a|
      ensures a[k] == b[k]
    {
      DayTextIsRunText(cfg, x, y, year, month, k + 1);
    }
  }

  /** Filtering the border and the title. */
  lemma OfKindHead(b: Command, t: Command)
    requires b.Rect? && t.Text?
    ensures OfKind([b, t], RectKind) == [b]
    ensures OfKind([b, t], TextKind) == [t]
    ensures OfKind([b, t], LineKind) == []
  {
    assert [b, t] == [b] + [t];
    OfKindAppend([b], [t], RectKind);
    OfKindAppend([b], [t], TextKind);
    OfKindAppend([b], [t], LineKind);
    OfKindSingle(b, RectKind);
    OfKindSingle(b, TextKind);
    OfKindSingle(b, LineKind);
    OfKindSingle(t, RectKind);
    OfKindSingle(t, TextKind);
    OfKindSingle(t, LineKind);
  }

  lemma OfKindFour(a: seq<Command>, b: seq<Command>, c: seq<Command>, d: seq<Command>, k: Kind)
    ensures OfKind(a + b + c + d, k) == OfKind(a, k) + OfKind(b, k) + OfKind(c, k) + OfKind(d, k)
  {
    OfKindAppend(a + b + c, d, k);
    OfKindAppend(a + b, c, k);
    OfKindAppend(a, b, k);
  }

  /** Filtering a panel's four parts (border and title, texts only, the week
      loop, lines only) for rectangles leaves the border ... */
  lemma AssemblyRects(r: seq<Command>, b: Command, t: Command, hdr: seq<Command>, gc: seq<Command>, vl: seq<Command>)
    requires r == [b, t] + hdr + gc + vl
    requires b.Rect? && t.Text?
    requires AllOfKind(hdr, TextKind) && AllOfKind(vl, LineKind)
    requires OfKind(gc, RectKind) == []
    ensures OfKind(r, RectKind) == [b]
  {
    OfKindUniform(hdr, TextKind);
    OfKindUniform(vl, LineKind);
    OfKindHead(b, t);
    OfKindFour([b, t], hdr, gc, vl, RectKind);
    assert [b] + [] + [] + [] == [b];
  }

  /** ... for texts the title, the headers and the loop's texts ... */
  lemma AssemblyTexts(r: seq<Command>, b: Command, t: Command, hdr: seq<Command>, gc: seq<Command>, vl: seq<Command>)
    requires r == [b, t] + hdr + gc + vl
    requires b.Rect? && t.Text?
    requires AllOfKind(hdr, TextKind) && AllOfKind(vl, LineKind)
    ensures OfKind(r, TextKind) == [t] + hdr + OfKind(gc, TextKind)
  {
    OfKindUniform(hdr, TextKind);
    OfKindUniform(vl, LineKind);
    OfKindHead(b, t);
    OfKindFour([b, t], hdr, gc, vl, TextKind);
    AppendEmpty([t] + hdr + OfKind(gc, TextKind));
  }

  /** ... and for lines the loop's lines and the vertical lines. */
  lemma AssemblyLines(r: seq<Command>, b: Command, t: Command, hdr: seq<Command>, gc: seq<Command>, vl: seq<Command>)
    requires r == [b, t] + hdr + gc + vl
    requires b.Rect? && t.Text?
    requires AllOfKind(hdr, TextKind) && AllOfKind(vl, LineKind)
    ensures OfKind(r, LineKind) == OfKind(gc, LineKind) + vl
  {
    OfKindUniform(hdr, TextKind);
    OfKindUniform(vl, LineKind);
    OfKindHead(b, t);
    OfKindFour([b, t], hdr, gc, vl, LineKind);
    assert [] + [] + OfKind(gc, LineKind) == OfKind(gc, LineKind);
  }

  /** For any week rows, the one rectangle of a panel is its inset border ... */
  lemma PanelRects(cfg: CalendarConfig, x: int, y: int, month: int, grid: seq<seq<int>>, titleWidth: int)
    requires ValidMonth(month) && |cfg.monthNames| >= 12
    ensures OfKind(DrawPanel(cfg, x, y, month, grid, titleWidth), RectKind) == [BorderCommand(cfg, x, y)]
  {
    var cell, sep := DayCell(cfg.layout, cfg.palette, x), Separator(cfg.layout, cfg.palette, x);
    var hdr := HeaderCommands(cfg, x, y);
    assert AllOfKind(hdr, TextKind);
    PanelDrawers(cfg.layout, cfg.palette, x);
    GridLines(cell, sep, grid, GridTop(y));
    AssemblyRects(DrawPanel(cfg, x, y, month, grid, titleWidth), BorderCommand(cfg, x, y),
      TitleCommand(cfg, x, y, month, titleWidth), hdr, GridCommands(cell, sep, grid, GridTop(y)),
      VerticalLines(cfg, x, y + HeaderTop, RowTop(GridTop(y), |grid| - 1)));
  }

  /** ... its texts are the title, the headers and the loop's texts ... */
  lemma PanelTexts(cfg: CalendarConfig, x: int, y: int, month: int, grid: seq<seq<int>>, titleWidth: int)
    requires ValidMonth(month) && |cfg.monthNames| >= 12
    ensures OfKind(DrawPanel(cfg, x, y, month, grid, titleWidth), TextKind)
      == [TitleCommand(cfg, x, y, month, titleWidth)] + HeaderCommands(cfg, x, y)
         + OfKind(GridCommands(DayCell(cfg.layout, cfg.palette, x), Separator(cfg.layout, cfg.palette, x), grid, GridTop(y)), TextKind)
  {
    var hdr := HeaderCommands(cfg, x, y);
    assert AllOfKind(hdr, TextKind);
    AssemblyTexts(DrawPanel(cfg, x, y, month, grid, titleWidth), BorderCommand(cfg, x, y),
      TitleCommand(cfg, x, y, month, titleWidth), hdr, GridCommands(DayCell(cfg.layout, cfg.palette, x), Separator(cfg.layout, cfg.palette, x), grid, GridTop(y)),
      VerticalLines(cfg, x, y + HeaderTop, RowTop(GridTop(y), |grid| - 1)));
  }

  /** ... and its lines are one separator per week and the vertical lines. */
  lemma PanelLines(cfg: CalendarConfig, x: int, y: int, month: int, grid: seq<seq<int>>, titleWidth: int)
    requires ValidMonth(month) && |cfg.monthNames| >= 12
    ensures OfKind(DrawPanel(cfg, x, y, month, grid, titleWidth), LineKind) == PanelLineList(cfg, x, y, |grid|)
  {
    var cell, sep := DayCell(cfg.layout, cfg.palette, x), Separator(cfg.layout, cfg.palette, x);
    var hdr := HeaderCommands(cfg, x, y);
    assert AllOfKind(hdr, TextKind);
    PanelDrawers(cfg.layout, cfg.palette, x);
    GridLines(cell, sep, grid, GridTop(y));
    AssemblyLines(DrawPanel(cfg, x, y, month, grid, titleWidth), BorderCommand(cfg, x, y),
      TitleCommand(cfg, x, y, month, titleWidth), hdr, GridCommands(cell, sep, grid, GridTop(y)),
      VerticalLines(cfg, x, y + HeaderTop, RowTop(GridTop(y), |grid| - 1)));
  }

  /** The one rectangle of a month's panel is its inset border. */
  lemma DrawMonthRects(cfg: CalendarConfig, x: int, y: int, month: int, year: int, titleWidth: int)
    requires ValidMonth(month) && |cfg.monthNames| >= 12
    ensures OfKind(DrawMonth(cfg, x, y, month, year, titleWidth), RectKind) == [BorderCommand(cfg, x, y)]
  {
    PanelRects(cfg, x, y, month, MonthCalendar(year, month), titleWidth);
  }

  /** The texts of a month's panel are its title, the weekday headers and
      then the days 1..n in order, each as `DayText`. */
  lemma DrawMonthTexts(cfg: CalendarConfig, x: int, y: int, month: int, year: int, titleWidth: int)
    requires ValidMonth(month) && |cfg.monthNames| >= 12
    ensures OfKind(DrawMonth(cfg, x, y, month, year, titleWidth), TextKind) == MonthTextList(cfg, x, y, month, year, titleWidth)
  {
    PanelTexts(cfg, x, y, month, MonthCalendar(year, month), titleWidth);
    PanelDrawers(cfg.layout, cfg.palette, x);
    GridTexts(DayCell(cfg.layout, cfg.palette, x), Separator(cfg.layout, cfg.palette, x), GridTop(y), year, month);
    DayTextsAreRun(cfg, x, y, year, month);
  }

  /** The lines of a month's panel are one separator per week, then the
      eight vertical lines. */
  lemma DrawMonthLines(cfg: CalendarConfig, x: int, y: int, month: int, year: int, titleWidth: int)
    requires ValidMonth(month) && |cfg.monthNames| >= 12
    ensures OfKind(DrawMonth(cfg, x, y, month, year, titleWidth), LineKind) == PanelLineList(cfg, x, y, |MonthCalendar(year, month)|)
  {
    PanelLines(cfg, x, y, month, MonthCalendar(year, month), titleWidth);
  }

  /** What a panel draws, kind by kind: one rectangle, the inset border; the
      texts title, weekday headers and then the days 1..n in order; the lines
      one separator per week and then the eight vertical lines.  Nothing else:
      the three lists together account for every command. */
  lemma DrawMonthCount(cfg: CalendarConfig, x: int, y: int, month: int, year: int, titleWidth: int)
    requires ValidMonth(month) && |cfg.monthNames| >= 12
    ensures |DrawMonth(cfg, x, y, month, year, titleWidth)|
      == 2 + DaysPerWeek + DaysInMonth(year, month) + |MonthCalendar(year, month)| + DaysPerWeek + 1
  {
    var r := DrawMonth(cfg, x, y, month, year, titleWidth);
    var weeks := |MonthCalendar(year, month)|;
    DrawMonthRects(cfg, x, y, month, year, titleWidth);
    DrawMonthTexts(cfg, x, y, month, year, titleWidth);
    DrawMonthLines(cfg, x, y, month, year, titleWidth);
    assert |OfKind(r, RectKind)| == 1;
    assert |OfKind(r, TextKind)| == 1 + DaysPerWeek + DaysInMonth(year, month);
    assert |OfKind(r, LineKind)| == weeks + DaysPerWeek + 1;
    KindCount(r);
  }

  /** The texts a panel should draw use the title and the day font only. */
  lemma MonthTextFonts(cfg: CalendarConfig, x: int, y: int, month: int, year: int, titleWidth: int)
    requires ValidMonth(month) && |cfg.monthNames| >= 12
    ensures NoneInFont(MonthTextList(cfg, x, y, month, year, titleWidth), YearFont)
  {
    var t, hdr, days := [TitleCommand(cfg, x, y, month, titleWidth)], HeaderCommands(cfg, x, y), DayTexts(cfg, x, y, year, month);
    assert NoneInFont(t, YearFont) && NoneInFont(hdr, YearFont) && NoneInFont(days, YearFont);
    NoneInFontAppend(t, hdr, YearFont);
    NoneInFontAppend(t + hdr, days, YearFont);
  }

  /** A panel writes no text in the year font: titles are bold, weekday
      headers and day numbers regular. */
  lemma DrawMonthFonts(cfg: CalendarConfig, x: int, y: int, month: int, year: int, titleWidth: int)
    requires ValidMonth(month) && |cfg.monthNames| >= 12
    ensures NoneInFont(DrawMonth(cfg, x, y, month, year, titleWidth), YearFont)
  {
    DrawMonthTexts(cfg, x, y, month, year, titleWidth);
    MonthTextFonts(cfg, x, y, month, year, titleWidth);
    NoneInFontOfTexts(DrawMonth(cfg, x, y, month, year, titleWidth), YearFont);
  }

  lemma HeadersReadStyle(c1: CalendarConfig, c2: CalendarConfig, x: int, y: int)
    requires c1.layout == c2.layout && c1.palette == c2.palette
    ensures HeaderCommands(c1, x, y) == HeaderCommands(c2, x, y)
  {
    var h1, h2 := HeaderCommands(c1, x, y), HeaderCommands(c2, x, y);
    forall i | 0 <= i < DaysPerWeek
      ensures h1[i] == h2[i]
    {
      assert h1[i] == HeaderCommand(c1, x, y, i);
    }
  }

  lemma VerticalLinesReadStyle(c1: CalendarConfig, c2: CalendarConfig, x: int, top: int, bottom: int)
    requires c1.layout == c2.layout && c1.palette == c2.palette
    ensures VerticalLines(c1, x, top, bottom) == VerticalLines(c2, x, top, bottom)
  {
    var v1, v2 := VerticalLines(c1, x, top, bottom), VerticalLines(c2, x, top, bottom);
    forall i | 0 <= i <= DaysPerWeek
      ensures v1[i] == v2[i]
    {
      assert v1[i] == VerticalLine(c1, x, top, bottom, i);
    }
  }

  /** A panel depends on the settings only through the canvas geometry, the
      colours and the month names. */
  lemma DrawMonthReadsStyle(c1: CalendarConfig, c2: CalendarConfig, x: int, y: int, month: int, year: int, titleWidth: int)
    requires ValidMonth(month) && |c1.monthNames| >= 12
    requires c1.layout == c2.layout && c1.palette == c2.palette && c1.monthNames == c2.monthNames
    ensures DrawMonth(c1, x, y, month, year, titleWidth) == DrawMonth(c2, x, y, month, year, titleWidth)
  {
    PanelReadsStyle(c1, c2, x, y, month, MonthCalendar(year, month), titleWidth);
  }

  lemma PanelReadsStyle(c1: CalendarConfig, c2: CalendarConfig, x: int, y: int, month: int, grid: seq<seq<int>>, titleWidth: int)
    requires ValidMonth(month) && |c1.monthNames| >= 12
    requires c1.layout == c2.layout && c1.palette == c2.palette && c1.monthNames == c2.monthNames
    ensures DrawPanel(c1, x, y, month, grid, titleWidth) == DrawPanel(c2, x, y, month, grid, titleWidth)
  {
    var bottom := RowTop(GridTop(y), |grid| - 1);
    HeadersReadStyle(c1, c2, x, y);
    VerticalLinesReadStyle(c1, c2, x, y + HeaderTop, bottom);
    assert BorderCommand(c1, x, y) == BorderCommand(c2, x, y);
    assert TitleCommand(c1, x, y, month, titleWidth) == TitleCommand(c2, x, y, month, titleWidth);
  }

  /** A line whose two end points lie inside the box. */
  predicate LineWithin(c: Command, b: Box) {
    c.Line? && b.left <= c.from.x <= b.right && b.left <= c.to.x <= b.right
    && b.top <= c.from.y <= b.bottom && b.top <= c.to.y <= b.bottom
  }

  /** The box the border rectangle outlines. */
  function BorderBox(cfg: CalendarConfig, x: int, y: int): Box {
    Box(x + BorderInset, y + BorderInset,
        x + PanelWidth(cfg.layout) - BorderInset, y + PanelHeight(cfg.layout) - BorderInset)
  }

  /** Every command of `cs` is a line within `b`. */
  predicate AllWithin(cs: seq<Command>, b: Box) {
    forall i :: 0 <= i < |cs| ==> LineWithin(cs[i], b)
  }

  lemma AllWithinAppend(a: seq<Command>, c: seq<Command>, b: Box)
    requires AllWithin(a, b) && AllWithin(c, b)
    ensures AllWithin(a + c, b)
  {
  }

  /** Up to six separators stay inside the border of a panel at least 10
      wide and 805 high. */
  lemma SeparatorsWithin(cfg: CalendarConfig, x: int, y: int, weeks: nat)
    requires weeks <= 6
    requires PanelWidth(cfg.layout) >= 2 * BorderInset
    requires PanelHeight(cfg.layout) - BorderInset >= RowTop(GridTop(0), 6)
    ensures AllWithin(SeparatorLines(cfg, x, y, weeks), BorderBox(cfg, x, y))
  {
    var lines := SeparatorLines(cfg, x, y, weeks);
    forall w | 0 <= w < weeks
      ensures LineWithin(lines[w], BorderBox(cfg, x, y))
    {
      assert lines[w] == SeparatorLine(cfg.layout, cfg.palette, x, RowTop(GridTop(y), w + 1));
    }
  }

  /** The vertical lines stay inside the border when their ends do. */
  lemma VerticalLinesWithin(cfg: CalendarConfig, x: int, y: int, top: int, bottom: int)
    requires PanelWidth(cfg.layout) >= 2 * BorderInset
    requires y + BorderInset <= top <= bottom <= y + PanelHeight(cfg.layout) - BorderInset
    ensures AllWithin(VerticalLines(cfg, x, top, bottom), BorderBox(cfg, x, y))
  {
    var lines := VerticalLines(cfg, x, top, bottom);
    var cw := CellWidth(cfg.layout);
    forall i | 0 <= i <= DaysPerWeek
      ensures LineWithin(lines[i], BorderBox(cfg, x, y))
    {
      assert lines[i] == VerticalLine(cfg, x, top, bottom, i);
      ColumnXClosed(cfg.layout, x, i);
      SlotWithin(0, DaysPerWeek + 1, cw);
      assert 0 <= i * cw <= 7 * cw by {
        if i < DaysPerWeek {
          SlotWithin(i, DaysPerWeek, cw);
        }
      }
    }
  }

  /** Up to six week rows: the separators and the vertical lines all stay
      inside the border of a panel at least 10 wide and 805 high. */
  lemma PanelLineListWithin(cfg: CalendarConfig, x: int, y: int, weeks: nat)
    requires 1 <= weeks <= 6
    requires PanelWidth(cfg.layout) >= 2 * BorderInset
    requires PanelHeight(cfg.layout) - BorderInset >= RowTop(GridTop(0), 6)
    ensures AllWithin(PanelLineList(cfg, x, y, weeks), BorderBox(cfg, x, y))
  {
    var seps, vl := SeparatorLines(cfg, x, y, weeks), VerticalLines(cfg, x, y + HeaderTop, RowTop(GridTop(y), weeks - 1));
    SeparatorsWithin(cfg, x, y, weeks);
    VerticalLinesWithin(cfg, x, y, y + HeaderTop, RowTop(GridTop(y), weeks - 1));
    AllWithinAppend(seps, vl, BorderBox(cfg, x, y));
  }

  /** When the panel is at least 10 wide and 805 high, every grid line lies
      within the border: the eighth vertical line is at most at the right
      edge and the sixth separator at most at the bottom edge. */
  lemma LinesWithinBorder(cfg: CalendarConfig, x: int, y: int, month: int, year: int, titleWidth: int)
    requires ValidMonth(month) && |cfg.monthNames| >= 12
    requires PanelWidth(cfg.layout) >= 2 * BorderInset
    requires PanelHeight(cfg.layout) - BorderInset >= RowTop(GridTop(0), 6)
    ensures AllWithin(OfKind(DrawMonth(cfg, x, y, month, year, titleWidth), LineKind), BorderBox(cfg, x, y))
  {
    DrawMonthLines(cfg, x, y, month, year, titleWidth);
    PanelLineListWithin(cfg, x, y, |MonthCalendar(year, month)|);
  }

  /** With the settings module's numbers the grid fits: the eighth vertical
      line is at x + 614, inside the right border edge x + 618, and the last
      separator is at most at y + 800, above the bottom border edge y + 875. */
  lemma GeneratorGridFits(x: int, y: int, month: int, year: int)
    requires ValidMonth(month)
    ensures ColumnX(GeneratorLayout, x, DaysPerWeek) == x + 614
    ensures BorderBox(GeneratorConfig, x, y) == Box(x + 5, y + 5, x + 618, y + 875)
    ensures RowTop(GridTop(y), |MonthCalendar(year, month)|) <= y + 800
  {
    GeneratorGeometry(month);
  }
}

=== FILE: seqs.dfy ===
/**
  The output of a counting loop: iteration `j` of `for j in lo..hi` emits the
  sequence `f(j)`, and the loop's output is their concatenation.  The lemmas
  here are about that shape only, whatever the iterations emit.

  What is assumed of single iterations is stated through the named
  predicates `Silent`, `EmitsAt`, `Agrees` and `BlockOf`.
 */
module Seqs {

  /** `f(lo) + f(lo + 1) + ... + f(hi - 1)`. */
  function ConcatRange<T>(f: int -> seq<T>, lo: int, hi: int): seq<T>
    decreases hi - lo
  {
    if lo >= hi then [] else f(lo) + ConcatRange(f, lo + 1, hi)
  }

  /** Iteration `j` emits nothing. */
  ghost predicate Silent<T>(f: int -> seq<T>, j: int) {
    f(j) == []
  }

  /** Iteration `j` emits exactly the element `s[j - lo]`. */
  ghost predicate EmitsAt<T>(f: int -> seq<T>, s: seq<T>, lo: int, j: int) {
    0 <= j - lo < |s| && f(j) == [s[j - lo]]
  }

  /** Iteration `j` of `f` emits what iteration `j + d` of `g` emits. */
  ghost predicate Agrees<T>(f: int -> seq<T>, g: int -> seq<T>, d: int, j: int) {
    f(j) == g(j + d)
  }

  /** Iteration `w` of `g` emits what iterations `7 * w .. 7 * w + 6` of `f`
      emit. */
  ghost predicate BlockOf<T>(f: int -> seq<T>, g: int -> seq<T>, w: int) {
    g(w) == ConcatRange(f, 7 * w, 7 * w + 7)
  }

  lemma AppendAssoc<T>(a: seq<T>, b: seq<T>, c: seq<T>)
    ensures a + (b + c) == (a + b) + c
  {
  }

  lemma AppendEmpty<T>(a: seq<T>)
    ensures [] + a == a
    ensures a + [] == a
  {
  }

  lemma TailOfAppend<T>(a: seq<T>, b: seq<T>)
    requires |a| > 0
    ensures (a + b)[1..] == a[1..] + b
  {
  }

  /** A common prefix and suffix can be cancelled. */
  lemma MiddleCancel<T>(p: seq<T>, a: seq<T>, b: seq<T>, q: seq<T>)
    ensures p + a + q == p + b + q ==> a == b
  {
    if p + a + q == p + b + q {
      assert |a| == |b|;
      assert a == (p + a + q)[|p|..|p| + |a|];
      assert b == (p + b + q)[|p|..|p| + |b|];
    }
  }

  /** A common prefix can be cancelled. */
  lemma PrefixCancel<T>(p: seq<T>, a: seq<T>, b: seq<T>)
    ensures p + a == p + b ==> a == b
  {
    if p + a == p + b {
      assert a == (p + a)[|p|..];
      assert b == (p + b)[|p|..];
    }
  }

  /** A common suffix can be cancelled. */
  lemma SuffixCancel<T>(a: seq<T>, b: seq<T>, q: seq<T>)
    ensures a + q == b + q ==> a == b
  {
    if a + q == b + q {
      assert |a| == |b|;
      assert a == (a + q)[..|a|];
      assert b == (b + q)[..|b|];
    }
  }

  /** A loop over `lo..hi` is the loop over `lo..mid` followed by the loop
      over `mid..hi`. */
  lemma {:induction false} ConcatRangeSplit<T>(f: int -> seq<T>, lo: int, mid: int, hi: int)
    requires lo <= mid <= hi
    ensures ConcatRange(f, lo, hi) == ConcatRange(f, lo, mid) + ConcatRange(f, mid, hi)
    decreases mid - lo
  {
    if lo < mid {
      ConcatRangeSplit(f, lo + 1, mid, hi);
      AppendAssoc(f(lo), ConcatRange(f, lo + 1, mid), ConcatRange(f, mid, hi));
    } else {
      AppendEmpty(ConcatRange(f, mid, hi));
    }
  }

  /** One iteration emits its own output. */
  lemma ConcatRangeOne<T>(f: int -> seq<T>, lo: int)
    ensures ConcatRange(f, lo, lo + 1) == f(lo)
  {
    assert ConcatRange(f, lo + 1, lo + 1) == [];
    AppendEmpty(f(lo));
  }

  /** Iterations that emit nothing leave the output empty. */
  lemma {:induction false} ConcatRangeEmpty<T>(f: int -> seq<T>, lo: int, hi: int)
    requires forall j :: lo <= j < hi ==> Silent(f, j)
    ensures ConcatRange(f, lo, hi) == []
    decreases hi - lo
  {
    if lo < hi {
      ConcatRangeEmpty(f, lo + 1, hi);
      assert Silent(f, lo);
      AppendEmpty(ConcatRange(f, lo + 1, hi));
    }
  }

  /** Two loops whose iterations agree up to an index shift `d` emit the same. */
  lemma {:induction false} ConcatRangeShift<T>(f: int -> seq<T>, g: int -> seq<T>, d: int, lo: int, hi: int)
    requires forall j :: lo <= j < hi ==> Agrees(f, g, d, j)
    ensures ConcatRange(f, lo, hi) == ConcatRange(g, lo + d, hi + d)
    decreases hi - lo
  {
    if lo < hi {
      ConcatRangeShift(f, g, d, lo + 1, hi);
      assert Agrees(f, g, d, lo);
      assert ConcatRange(f, lo, hi) == f(lo) + ConcatRange(f, lo + 1, hi);
      assert ConcatRange(g, lo + d, hi + d) == g(lo + d) + ConcatRange(g, lo + d + 1, hi + d);
    }
  }

  /** When iteration `j` emits exactly the element `s[j - lo]`, the loop emits `s`. */
  lemma {:induction false} ConcatRangeSingles<T>(f: int -> seq<T>, s: seq<T>, lo: int, hi: int)
    requires lo <= hi && |s| == hi - lo
    requires forall j :: lo <= j < hi ==> EmitsAt(f, s, lo, j)
    ensures ConcatRange(f, lo, hi) == s
    decreases hi - lo
  {
    if lo < hi {
      var rest, next := s[1..], lo + 1;
      forall j | next <= j < hi
        ensures EmitsAt(f, rest, next, j)
      {
        assert EmitsAt(f, s, lo, j);
        assert rest[j - next] == s[j - lo];
      }
      ConcatRangeSingles(f, rest, next, hi);
      assert EmitsAt(f, s, lo, lo);
      assert ConcatRange(f, lo, hi) == [s[0]] + rest;
      assert s == [s[0]] + rest;
    } else {
      assert s == [];
    }
  }

  /** Cutting a loop into blocks of seven consecutive iterations: when
      iteration `w` of an outer loop emits what iterations `7 * w .. 7 * w + 6`
      of an inner loop emit, the outer loop over `0..n` emits what the inner
      loop over `0..7 * n` emits. */
  lemma {:induction false} ConcatRangeSevens<T>(f: int -> seq<T>, g: int -> seq<T>, n: nat)
    requires forall w :: 0 <= w < n ==> BlockOf(f, g, w)
    ensures ConcatRange(g, 0, n) == ConcatRange(f, 0, 7 * n)
    decreases n
  {
    if n > 0 {
      var m := n - 1;
      var a, b := 7 * m, 7 * n;
      ConcatRangeSevens(f, g, m);
      assert ConcatRange(g, 0, m) == ConcatRange(f, 0, a);
      assert BlockOf(f, g, m);
      assert g(m) == ConcatRange(f, a, b);
      ConcatRangeSplit(g, 0, m, n);
      ConcatRangeOne(g, m);
      ConcatRangeSplit(f, 0, a, b);
    }
  }

  /** One block of seven: when iteration `i` of an inner loop emits what
      iteration `7 * w + i` of another emits, the inner loop over `0..7`
      emits what the other emits over `7 * w .. 7 * w + 6`. */
  lemma ConcatRangeBlock<T>(f: int -> seq<T>, g: int -> seq<T>, w: int)
    requires forall i :: 0 <= i < 7 ==> Agrees(f, g, 7 * w, i)
    ensures ConcatRange(f, 0, 7) == ConcatRange(g, 7 * w, 7 * w + 7)
  {
    ConcatRangeShift(f, g, 7 * w, 0, 7);
  }

  /** A loop over `0..n` whose iterations emit nothing before `lead` and from
      `lead + |run|` on, and the element `run[j - lead]` in between, emits
      `run`. */
  lemma ConcatRangeRun<T>(f: int -> seq<T>, run: seq<T>, lead: int, n: int)
    requires 0 <= lead && lead + |run| <= n
    requires forall j :: 0 <= j < lead ==> Silent(f, j)
    requires forall j :: lead + |run| <= j < n ==> Silent(f, j)
    requires forall j :: lead <= j < lead + |run| ==> EmitsAt(f, run, lead, j)
    ensures ConcatRange(f, 0, n) == run
  {
    var stop := lead + |run|;
    ConcatRangeSplit(f, 0, lead, n);
    ConcatRangeSplit(f, lead, stop, n);
    ConcatRangeEmpty(f, 0, lead);
    ConcatRangeEmpty(f, stop, n);
    ConcatRangeSingles(f, run, lead, stop);
    assert ConcatRange(f, 0, n) == [] + (run + []);
    AppendEmpty(run);
    AppendEmpty(run + []);
  }
}
